=== FILE: README.md ===
# Card pattern generator and card-text normalizer, in Dafny

This project models the pure core of a Telegram/web card-checking tool. The core has two parts.

- **The generator** (`CardGenerator` in gen.py). It validates a pattern over digits, the
  wildcards `x`/`X` and the separator `|`, and rewrites it into a canonical shape: a bare
  BIN, a quad `BIN|MM|YY|CVV`, or a literal pattern with wildcards. It then produces card
  numbers: each wildcard is replaced by a drawn digit, and the Luhn check digit is appended
  or replaces the last digit. A number is paired with the quad's other fields, or with a
  drawn month, year and CVV.
- **`normalize_card`** (app.py). It rewrites free-form card text into the line
  `cc|mm|yy|cvv`. It does this by classifying the text's maximal digit runs.

Modules:

- `Wrappers` (wrappers.dfy): `Option` and `Result`.
- `Strings` (strings.dfy): the Python string operations the code relies on. These are
  `s.count(c)`, `s.replace(c, '')`, `s.split(sep)`, `sep.join(parts)`, `'x' * n`,
  `s[:-1]`, `str(n)`, `s.zfill(w)` and `s.startswith(p)`. Each works on `seq<char>` and has
  its Python edge cases, e.g. `split` always returns at least one piece.
- `Luhn` (luhn.dfy): `luhn_checksum` and `calculate_check_digit`. It is tied to the
  position-weighted formulation of the Luhn formula in Annex B of ISO/IEC 7812-1.
- `CardGenerator` (generator.dfy): wildcard filling, `generate_valid_card`,
  `parse_input_pattern`, `validate_pattern`, `generate_from_pattern` and `generate_cards`.
  It also holds the end-to-end facts about generated records.
- `CardText` (cardtext.dfy): `normalize_card`, i.e. digit runs, the `elif` chain, and the
  output line.

How behaviour is represented:

- Every `random.randint` is an argument. Each iteration of a batch consumes one `CardDraw`.
  It holds a digit stream (the `i`-th wildcard of the pattern takes `digits(i)`), a month in
  1..12, a year in 23..33 and a CVV in 100..999.
- A Python exception becomes `None`. In the source such an exception is `int()` raising on a
  non-digit inside the Luhn code.
- An error message of the generator becomes a constructor of `GenError`.

Where the code disagrees with its own messages and comments, the model follows the code:

- In quad mode the BIN segment is padded with wildcards to 16 characters, and then a check
  digit is appended. So a BIN segment shorter than 16 gives a 17-digit number
  (`QuadNumber`, `QuadRecordShape`). The comment "-1 for check digit" at gen.py:89 implies
  16-digit numbers.
- The "BIN too short" test measures the length of the first `|`-segment, wildcards included.
  It does not count digits, although the message at gen.py:160 says "BIN must be at least 6
  digits".

Some branches of the code can never make a difference:

- The `len(pattern) < 6` half of the length test can never fail. It is kept as written.
- `parse_input_pattern` on a bare BIN always leaves a remaining length of 9, so its
  `else` at gen.py:92-93 is never taken.
- In quad mode three or more pipes always give four or more segments, so the random
  defaults at gen.py:118-120 are never used.
- The model contains neither unreachable branch.

## Model

| member | source | states |
|---|---|---|
| Strings.DigitChar | gen.py:56-59 | `str(d)` of a digit is a digit character whose value is `d` |
| Strings.DropLast | gen.py:54 | `s[:-1]` is the prefix one shorter than `s`, and empty for the empty string |
| Strings.Replace | app.py:452 | `s.replace(a, b)` keeps the length; each `a` becomes `b` and every other character stays in place |
| Strings.Count | gen.py:49 | `s.count(c)` is at most the length, and zero exactly when `c` does not occur |
| Strings.Remove | gen.py:84 | `s.replace(c, '')` leaves no `c` and is shorter by the number of occurrences |
| Strings.RemoveConcat | gen.py:84 | deleting `c` from `a + b` deletes it from each part, so the kept characters stay in their order |
| Strings.RemoveContents | gen.py:84 | the characters left are exactly those of `s` other than `c` |
| Strings.CountDigits | gen.py:163 | the number of digits is at most the length, and equals it exactly for an all-digit string |
| Strings.DigitChars | gen.py:163 | the characters `re.findall(r'\d', s)` keeps are digits; a single character is kept exactly when it is a digit |
| Strings.DigitCharsConcat | gen.py:163 | the digits of `a + b` are the digits of `a` followed by those of `b`, so they keep their order |
| Strings.DigitCharsCount | gen.py:163 | the digit count is the number of characters `re.findall(r'\d', s)` finds |
| Strings.Split | gen.py:97 | `s.split(sep)` has one more piece than `s` has separators, and no piece holds one |
| Strings.SplitContents | gen.py:97 | every character of a piece comes from `s` |
| Strings.JoinSplit | gen.py:97 | joining the pieces of a split with the separator restores the string |
| Strings.SplitJoin | gen.py:127 | splitting a join of separator-free pieces gives the pieces back |
| Strings.SplitHeadLength | gen.py:96-103 | the first piece is no longer than the string with its separators deleted |
| Strings.Repeat | gen.py:91 | `c * n` has length `n`, or 0 when `n` is not positive |
| Strings.RepeatElements | gen.py:91 | every character of `c * n` is `c` |
| Strings.DecimalString | gen.py:136-138 | `str(n)` is a non-empty digit string without a leading zero whose value is `n` |
| Strings.ZFill | gen.py:136 | `zfill(w)` pads to width `w` and keeps a digit string a digit string |
| Strings.ZFillPads | gen.py:136-137 | the result of `zfill` ends with `s`, and every character before it is '0' |
| Strings.TwoDigitNumeral | gen.py:136-137 | `str(n).zfill(2)` for 1..99 is two digits whose value is `n` |
| Luhn.Values | gen.py:19-23 | `digits_of` gives one value per character, the value of that digit |
| Luhn.DigitsOf | gen.py:19-20 | the digit list exists exactly when every character is a decimal digit (`int()` raises otherwise), and then holds one value per character, the value of that digit |
| Luhn.RightStride | gen.py:24-25 | `digits[-1::-2]` has (n+1)/2 elements |
| Luhn.RightStrideAt | gen.py:24-25 | element `k` of `digits[-1::-2]` is the digit `2k` places left of the last one |
| Luhn.DoubledDigitRule | gen.py:28-29 | the digit sum of a doubled digit is 2d below 5 and 2d-9 from 5 on |
| Luhn.LuhnChecksum | gen.py:14-31 | defined exactly for digit strings; the checksum is the stride total mod 10 |
| Luhn.TotalIsAnnexTotal | gen.py:23-29 | the two-stride total equals the position-weighted sum of ISO/IEC 7812-1 Annex B: odd positions from the right count once, even positions count the digit sum of their double |
| Luhn.ZeroIsValid | gen.py:39 | the single digit "0" has checksum 0 |
| Luhn.CalculateCheckDigit | gen.py:33-41 | defined exactly for digit strings; the empty partial number gets check digit 0 |
| Luhn.ChecksumAppend | gen.py:39 | appending digit `d` gives checksum `d` plus the total with a 0 appended, mod 10 |
| Luhn.TopUp | gen.py:41 | `(10 - t % 10) % 10` is the only digit that lifts `t` to a multiple of 10 |
| Luhn.CheckDigitCharacterization | gen.py:33-41 | `p` followed by `d` is Luhn-valid if and only if `d` is the check digit of `p`: the check digit exists, makes the number valid, and no other digit does |
| Luhn.CheckDigitMakesValid | gen.py:33-41 | a digit string followed by its check digit is Luhn-valid |
| Luhn.CheckDigitRoundTrip | gen.py:33-41 | the check digit of a valid number without its last digit is that last digit |
| Luhn.LuhnValidIsDigits | gen.py:19-20 | only digit strings are Luhn-valid |
| CardGenerator.Fill | gen.py:61-70 | filling keeps the length, and gives a digit string exactly when the non-wildcards are digits |
| CardGenerator.FillPlacesDigitsAt | gen.py:62-68 | at index `j` the filled string has the drawn digit numbered by the wildcards before `j`, or the pattern's own character |
| CardGenerator.FillPlacesDigits | gen.py:59-70 | the `i`-th drawn digit lands on the `i`-th wildcard, and every other character stays at its index |
| CardGenerator.GenerateValidCard | gen.py:43-77 | a card comes out exactly when the characters sent to the Luhn code are digits; the empty pattern gives "0" |
| CardGenerator.FixedPatternCard | gen.py:52-56 | a non-empty pattern without wildcards whose characters before the last are digits gives a card of the same length, with the same characters except the last, and Luhn-valid |
| CardGenerator.WildPatternCard | gen.py:58-77 | with wildcards: one longer, drawn digits in wildcard order, fixed characters kept, Luhn-valid |
| CardGenerator.GeneratedCard | gen.py:43-77 | a non-empty pattern of digits and wildcards always yields a pipe-free card for it |
| CardGenerator.ParseInputPattern | gen.py:79-107 | after removing spaces: six or more digits give the first six and nine 'x'; four or more segments stay; fewer lose their pipes; anything else stays |
| CardGenerator.ValidatePattern | gen.py:144-171 | each error is reported exactly when its check is the first to fail, in the source's order; otherwise the space-free pattern is returned |
| CardGenerator.GenerateRecord | gen.py:109-142 | an iteration succeeds exactly when its number does; patterns that are neither quad nor pipe-free of length 6+ give the bare number |
| CardGenerator.QuadNumber | gen.py:126 | the quad number comes from the BIN padded to 16 with wildcards, so it is 17 long for a shorter BIN |
| CardGenerator.QuadRecordShape | gen.py:114-128 | a quad record has four fields: the number for the padded BIN, then segments 2-4 unchanged |
| CardGenerator.PlainRecordShape | gen.py:130-139 | a pipe-free pattern of 6+ digits and wildcards gives the number, a 2-digit month, a 2-digit year and a 3-digit CVV with the drawn values |
| CardGenerator.Outcomes | gen.py:132-141 | the `for _ in range(amount)` loop has one outcome per iteration |
| CardGenerator.OutcomesAt | gen.py:132-141 | outcome `i` is the iteration run on draw `i` |
| CardGenerator.Collect | gen.py:123-142 | the gathered cards are as many as the iterations |
| CardGenerator.CollectAll | gen.py:123-142 | gathering succeeds exactly when every iteration does, and keeps the cards in order |
| CardGenerator.GenerateFromPattern | gen.py:109-142 | a successful call returns `amount` cards, none when `amount` is not positive |
| CardGenerator.GenerateFromPatternRecords | gen.py:122-142 | the call succeeds exactly when every iteration does, and card `i` is the record of draw `i` |
| CardGenerator.BatchStep | gen.py:190-193 | the first `n` iterations are the first `n-1` followed by one single-card call on the last draw |
| CardGenerator.BatchLoop | gen.py:187-196 | `amount` single-card calls, concatenated, equal one call for `amount` cards |
| CardGenerator.GenerateCards | gen.py:173-199 | a validation error is returned with no cards before any generation; otherwise the cards of the parsed pattern, or no cards and a generation error |
| CardGenerator.BareBinParsed | gen.py:87-91 | a bare BIN is rewritten into a pipe-free pattern of digits and wildcards |
| CardGenerator.ShortPipedParsed | gen.py:96-103 | a pattern with fewer than three pipes loses them and keeps at least six characters |
| CardGenerator.ParsedPatternShape | gen.py:84-107 | a validated pattern is rewritten into a quad whose BIN holds digits and wildcards, or into a pipe-free pattern of 6+ digits and wildcards |
| CardGenerator.ParsedRecordShape | gen.py:109-142 | every iteration on a validated pattern yields four fields with a Luhn-valid number first |
| CardGenerator.GenerateCardsSucceeds | gen.py:173-199 | a validated pattern never yields an error: exactly `amount` records in draw order, each of four fields with a Luhn-valid number |
| CardText.RunsFrom | app.py:453 | every run found is a non-empty digit string |
| CardText.DigitRuns | app.py:453 | `re.findall(r'\d+', text)` yields non-empty digit strings |
| CardText.RunsSplitAt | app.py:453 | a non-digit ends the run being read: the runs of the text are those before it followed by those after it |
| CardText.RunsOfSeparated | app.py:453 | the runs of `a + [c] + b` for a non-digit `c` are the runs of `a` followed by the runs of `b`, so no run spans a non-digit |
| CardText.RunsOfRun | app.py:453 | a non-empty digit string is found as one whole run, so adjacent digits are never split |
| CardText.RunsCoverDigits | app.py:453 | the runs laid end to end are exactly the digits of the text, in order |
| CardText.RunsIgnoreSeparators | app.py:452-453 | exchanging non-digit characters for other non-digits changes no run |
| CardText.CleanKeepsRuns | app.py:452-453 | replacing newlines and slashes by spaces leaves the runs unchanged |
| CardText.RunsOfJoin | app.py:453 | the runs of digit runs joined by '\|' are those runs |
| CardText.StepShape | app.py:457-467 | one loop pass keeps every field empty or of its kind |
| CardText.ScanShape | app.py:455-467 | after the loop, each field is empty or of its kind: 16 digits; a month run; 4 digits starting "20"; a 3/4-digit non-year |
| CardText.ScanCard | app.py:458-459 | cc is the last 16-digit run |
| CardText.ScanNoCard | app.py:458-459 | without a 16-digit run cc stays empty: 13-15 and 17+ digit runs are ignored |
| CardText.ScanHasCard | app.py:458-459 | any 16-digit run fills cc |
| CardText.ScanMonth | app.py:462-463 | mm is the first 2-digit run of value at most 12, "00" included |
| CardText.ScanNoMonth | app.py:462-463 | without such a run mm stays empty |
| CardText.ScanHasMonth | app.py:462-463 | any such run fills mm |
| CardText.ScanYear | app.py:460-461 | yy is the last 4-digit run starting "20" when there is one, overwriting anything before |
| CardText.ScanShortYear | app.py:464-465 | otherwise yy is "20" followed by the first 2-digit run, not starting "20", that the month branch did not take |
| CardText.ScanNoYear | app.py:460-465 | with neither, yy stays empty |
| CardText.ScanHasYear | app.py:460-465 | either kind of run fills yy |
| CardText.ScanCvv | app.py:466-467 | cvv is the first 3- or 4-digit run that is not a year |
| CardText.ScanNoCvv | app.py:460-467 | without such a run cvv stays empty; a 4-digit run starting "20" never becomes cvv |
| CardText.ScanHasCvv | app.py:466-467 | any such run fills cvv |
| CardText.ScanComplete | app.py:457-469 | all four fields are found exactly when the runs hold a number, a month, a year and a CVV |
| CardText.Clean | app.py:452 | every newline and slash becomes a space, every other character stays in place, and none of either is left |
| CardText.NormalizeCard | app.py:449-450 | empty text gives None |
| CardText.NormalizeFields | app.py:447-472 | a line comes out exactly for non-empty text whose runs hold all four fields, and it joins the fields found |
| CardText.NormalizeShape | app.py:469-470 | the line splits at '\|' into a 16-digit number, a month, a 4-digit year starting "20" and a 3/4-digit CVV |
| CardText.ScanCardLine | app.py:455-467 | scanning the four fields of a card line finds them again, each in its own place |
| CardText.NormalizeIdempotent | app.py:447-472 | normalizing a normalized line gives the same line |

## Left out

- The Flask routes and session handling are not modelled: they are web I/O. So are the
  MySQL pool and the database-backed checks (admin, premium, authorization, key
  redemption, statistics, subscription page): they are persistence.
- `check_card` is not modelled: it is imported from a module `p` that is not part of this
  model. `send_to_telegram` (external delivery) is left out too. So is `process_mass_check`
  with its `threading.Thread` dispatch, because it is concurrency.
- The regex fallback extraction of the mass upload (app.py:247-251) is left out. Its
  lazy-quantifier semantics are outside this core.
- Python's `$` also matches before a final newline, so the source's anchored `re.match`
  calls (gen.py:87, gen.py:153) accept one trailing '\n'. The model treats the alphabet
  check as "non-empty, every character in the set". A validated pattern ending in a newline
  can therefore fail generation in the source, which `GenerateCardsSucceeds` does not cover.
- `\d` in Python matches every Unicode decimal digit, and `int()` accepts them
  (gen.py:20, gen.py:87, gen.py:163, app.py:453). The model is ASCII-only: a digit is
  '0'..'9'.
- The statistics of `random.randint` (uniformity) are left out. Draws are arbitrary
  in-range inputs.
- The wording of the error messages is left out. Each becomes a `GenError` constructor, and
  the text of a caught exception is dropped.
- `None` as the argument of `normalize_card` is not modelled. The model's input is a string,
  and the empty string stands for every falsy argument.
- static/js/script.js is left out: despite its name it holds the HTML template of the login page.
- The `__main__` demonstration blocks (gen.py:203-226, app.py:500-529) are left out.
- The default `amount=10` of `generate_from_pattern` and `generate_cards` (gen.py:109,
  gen.py:173) is not modelled: every modelled call passes the amount, as app.py:279 does.
- The `mm`, `yy` and `cvv` parameters of `generate_valid_card` (gen.py:43) are not modelled:
  its body never reads them.

=== FILE: cardtext.dfy ===
/**
  `normalize_card` from app.py: free-form card text (a number, an expiry and a CVV written
  in any layout) rewritten into the canonical `cc|mm|yy|cvv` line.

  The text is cut into maximal runs of decimal digits, and the runs are classified one by one,
  left to right, by length and leading digits. A run of 16 digits is the card number; a
  4-digit run starting "20" is the year; the first 2-digit run of at most 12 is the month;
  a 2-digit run that is not the month fills an empty year as "20" followed by it; the first
  remaining 3- or 4-digit run is the CVV.
 */
module CardText {
  import opened Wrappers
  import opened Strings

  // ---------------------------------------------------------------------------
  // Digit runs: re.findall(r'\d+', text)
  // ---------------------------------------------------------------------------

  /** A non-empty string of digits: what `\d+` matches. */
  predicate IsRun(r: string) {
    |r| > 0 && AllDigits(r)
  }

  /** Every element is a digit run. */
  predicate AllRuns(rs: seq<string>) {
    forall i :: 0 <= i < |rs| ==> IsRun(rs[i])
  }

  /** The run being read, if any, as a list of zero or one run. */
  function Flush(current: string): (rs: seq<string>)
    requires AllDigits(current)
    ensures AllRuns(rs)
  {
    if current == [] then [] else [current]
  }

  lemma AllDigitsSnoc(s: string, c: char)
    requires AllDigits(s) && IsDigit(c)
    ensures AllDigits(s + [c])
  {
    assert forall i :: 0 <= i < |s| ==> (s + [c])[i] == s[i];
  }

  lemma AllRunsConcat(a: seq<string>, b: seq<string>)
    requires AllRuns(a) && AllRuns(b)
    ensures AllRuns(a + b)
  {
    assert forall i :: 0 <= i < |a| ==> (a + b)[i] == a[i];
    assert forall i :: |a| <= i < |a| + |b| ==> (a + b)[i] == b[i - |a|];
  }

  /** The runs of `text`, given that the digits `current` were read just before it. */
  function RunsFrom(text: string, current: string): (rs: seq<string>)
    requires AllDigits(current)
    ensures AllRuns(rs)
  {
    if |text| == 0 then Flush(current)
    else if IsDigit(text[0]) then
      AllDigitsSnoc(current, text[0]);
      RunsFrom(text[1..], current + [text[0]])
    else
      var rest := RunsFrom(text[1..], []);
      AllRunsConcat(Flush(current), rest);
      Flush(current) + rest
  }

  /** The maximal runs of digits of `text`, left to right. */
  function DigitRuns(text: string): (rs: seq<string>)
    ensures AllRuns(rs)
  {
    RunsFrom(text, [])
  }

  /** The runs laid end to end. */
  function Concat(rs: seq<string>): string {
    if |rs| == 0 then [] else rs[0] + Concat(rs[1..])
  }

  lemma {:induction false} ConcatAppend(a: seq<string>, b: seq<string>)
    ensures Concat(a + b) == Concat(a) + Concat(b)
  {
    if |a| > 0 {
      assert (a + b)[1..] == a[1..] + b;
      ConcatAppend(a[1..], b);
    } else {
      assert a + b == b;
    }
  }

  lemma {:induction false} RunsFromDigits(text: string, current: string)
    requires AllDigits(current)
    ensures Concat(RunsFrom(text, current)) == current + DigitChars(text)
  {
    if |text| == 0 {
      assert Concat(Flush(current)) == current by {
        if current != [] { assert Concat([current]) == current + Concat([]); }
      }
    } else if IsDigit(text[0]) {
      AllDigitsSnoc(current, text[0]);
      RunsFromDigits(text[1..], current + [text[0]]);
      assert current + [text[0]] + DigitChars(text[1..]) == current + ([text[0]] + DigitChars(text[1..]));
    } else {
      RunsFromDigits(text[1..], []);
      ConcatAppend(Flush(current), RunsFrom(text[1..], []));
      assert Concat(Flush(current)) == current by {
        if current != [] { assert Concat([current]) == current + Concat([]); }
      }
    }
  }

  /** The runs hold exactly the digits of the text, in order. */
  lemma RunsCoverDigits(text: string)
    ensures Concat(DigitRuns(text)) == DigitChars(text)
  {
    RunsFromDigits(text, []);
  }

  /** A non-digit ends the run being read: the runs on either side of it are found separately. */
  lemma {:induction false} RunsSplitAt(a: string, c: char, b: string, current: string)
    requires AllDigits(current) && !IsDigit(c)
    ensures RunsFrom(a + [c] + b, current) == RunsFrom(a, current) + DigitRuns(b)
    decreases |a|
  {
    var s := a + [c] + b;
    if |a| == 0 {
      assert s == [c] + b;
      assert s[1..] == b;
    } else {
      assert s[0] == a[0];
      assert s[1..] == a[1..] + [c] + b;
      if IsDigit(a[0]) {
        AllDigitsSnoc(current, a[0]);
        RunsSplitAt(a[1..], c, b, current + [a[0]]);
      } else {
        RunsSplitAt(a[1..], c, b, []);
        assert Flush(current) + (RunsFrom(a[1..], []) + DigitRuns(b))
          == (Flush(current) + RunsFrom(a[1..], [])) + DigitRuns(b);
      }
    }
  }

  /** A text with a non-digit in it has the runs of the two sides, so no run spans a non-digit. */
  lemma RunsOfSeparated(a: string, c: char, b: string)
    requires !IsDigit(c)
    ensures DigitRuns(a + [c] + b) == DigitRuns(a) + DigitRuns(b)
  {
    RunsSplitAt(a, c, b, []);
  }

  /** A digit run is found whole: consecutive digits are never split apart. */
  lemma RunsOfRun(r: string)
    requires IsRun(r)
    ensures DigitRuns(r) == [r]
  {
    RunsFromDigitPrefix(r, [], []);
    assert r + [] == r;
    assert [] + r == r;
  }

  /** Characters that are not digits all separate runs alike: exchanging one for another changes no run. */
  lemma {:induction false} RunsIgnoreSeparators(a: string, b: string, current: string)
    requires AllDigits(current)
    requires |a| == |b|
    requires forall i :: 0 <= i < |a| ==> (IsDigit(a[i]) || IsDigit(b[i]) ==> a[i] == b[i])
    ensures RunsFrom(a, current) == RunsFrom(b, current)
  {
    if |a| > 0 {
      if IsDigit(a[0]) {
        AllDigitsSnoc(current, a[0]);
        RunsIgnoreSeparators(a[1..], b[1..], current + [a[0]]);
      } else {
        RunsIgnoreSeparators(a[1..], b[1..], []);
      }
    }
  }

  lemma {:induction false} RunsFromDigitPrefix(a: string, rest: string, current: string)
    requires AllDigits(current) && AllDigits(a)
    ensures AllDigits(current + a)
    ensures RunsFrom(a + rest, current) == RunsFrom(rest, current + a)
  {
    if |a| == 0 {
      assert a + rest == rest;
      assert current + a == current;
    } else {
      assert (a + rest)[0] == a[0];
      assert (a + rest)[1..] == a[1..] + rest;
      AllDigitsSnoc(current, a[0]);
      assert AllDigits(a[1..]) by {
        assert forall i :: 0 <= i < |a| - 1 ==> a[1..][i] == a[i + 1];
      }
      RunsFromDigitPrefix(a[1..], rest, current + [a[0]]);
      assert current + [a[0]] + a[1..] == current + a;
    }
  }

  /** The runs of `|`-joined digit runs are those runs. */
  lemma {:induction false} RunsOfJoin(rs: seq<string>)
    requires |rs| >= 1 && AllRuns(rs)
    ensures DigitRuns(Join(rs, '|')) == rs
  {
    assert IsRun(rs[0]);
    if |rs| == 1 {
      RunsFromDigitPrefix(rs[0], [], []);
      assert rs[0] + [] == rs[0];
      assert [] + rs[0] == rs[0];
    } else {
      var tail := Join(rs[1..], '|');
      assert AllRuns(rs[1..]) by {
        assert forall i :: 0 <= i < |rs| - 1 ==> rs[1..][i] == rs[i + 1];
      }
      RunsOfJoin(rs[1..]);
      assert Join(rs, '|') == rs[0] + (['|'] + tail);
      RunsFromDigitPrefix(rs[0], ['|'] + tail, []);
      assert [] + rs[0] == rs[0];
      assert (['|'] + tail)[1..] == tail;
      assert rs == [rs[0]] + rs[1..];
    }
  }

  // ---------------------------------------------------------------------------
  // Classifying the runs
  // ---------------------------------------------------------------------------

  /** The four fields as they stand during the scan; "" is a field not yet found. */
  datatype Fields = Fields(cc: string, mm: string, yy: string, cvv: string)

  const Blank := Fields("", "", "", "")

  /** A 4-digit run starting "20": a year. */
  predicate IsYearRun(r: string) {
    |r| == 4 && StartsWith(r, "20")
  }

  /** A 2-digit run of value at most 12 ("00" included): a month. */
  predicate IsMonthRun(r: string)
    requires AllDigits(r)
  {
    |r| == 2 && Value(r) <= 12
  }

  /** A 2-digit run not starting "20": a year without its century. */
  predicate IsShortYear(r: string) {
    |r| == 2 && !StartsWith(r, "20")
  }

  /** A 3- or 4-digit run that is not a year. */
  predicate IsCvvRun(r: string) {
    (|r| == 3 || |r| == 4) && !IsYearRun(r)
  }

  /** One pass of the loop body: the first matching branch of the `elif` chain. */
  function Step(f: Fields, part: string): (g: Fields)
    requires AllDigits(part)
  {
    if |part| == 16 then f.(cc := part)
    else if |part| == 4 && StartsWith(part, "20") then f.(yy := part)
    else if |part| == 2 && Value(part) <= 12 && f.mm == "" then f.(mm := part)
    else if |part| == 2 && !StartsWith(part, "20") && f.yy == "" then f.(yy := "20" + part)
    else if (|part| == 3 || |part| == 4) && f.cvv == "" then f.(cvv := part)
    else f
  }

  /** The loop over the runs, from blank fields. */
  function Scan(rs: seq<string>): Fields
    requires AllRuns(rs)
  {
    if |rs| == 0 then Blank
    else
      var n := |rs|;
      assert AllRuns(rs[..n - 1]) by {
        assert forall i :: 0 <= i < n - 1 ==> rs[..n - 1][i] == rs[i];
      }
      Step(Scan(rs[..n - 1]), rs[n - 1])
  }

  /** Each field is empty or of its kind. */
  predicate WellShaped(f: Fields) {
    && (f.cc == "" || (|f.cc| == 16 && AllDigits(f.cc)))
    && (f.mm == "" || (AllDigits(f.mm) && IsMonthRun(f.mm)))
    && (f.yy == "" || (AllDigits(f.yy) && IsYearRun(f.yy)))
    && (f.cvv == "" || (AllDigits(f.cvv) && IsCvvRun(f.cvv)))
  }

  lemma StepShape(f: Fields, part: string)
    requires WellShaped(f) && IsRun(part)
    ensures WellShaped(Step(f, part))
  {
    if |part| == 2 && !StartsWith(part, "20") {
      AllDigitsCons('2', "0" + part);
      AllDigitsCons('0', part);
      assert "20" + part == ['2'] + (['0'] + part);
      assert ("20" + part)[..2] == "20";
    }
  }

  /** Whatever the runs, every field the scan fills has its kind. */
  lemma {:induction false} ScanShape(rs: seq<string>)
    requires AllRuns(rs)
    ensures WellShaped(Scan(rs))
  {
    if |rs| > 0 {
      var n := |rs|;
      assert AllRuns(rs[..n - 1]) by {
        assert forall i :: 0 <= i < n - 1 ==> rs[..n - 1][i] == rs[i];
      }
      ScanShape(rs[..n - 1]);
      StepShape(Scan(rs[..n - 1]), rs[n - 1]);
    }
  }

  /** Unfolds `Scan` by its last run. */
  lemma ScanLast(rs: seq<string>)
    requires AllRuns(rs) && |rs| > 0
    ensures AllRuns(rs[..|rs| - 1])
    ensures Scan(rs) == Step(Scan(rs[..|rs| - 1]), rs[|rs| - 1])
    ensures forall j :: 0 <= j < |rs| - 1 ==> rs[..|rs| - 1][j] == rs[j]
  {
    assert forall i :: 0 <= i < |rs| - 1 ==> rs[..|rs| - 1][i] == rs[i];
  }

  /** The card number is the last 16-digit run. */
  lemma {:induction false} ScanCard(rs: seq<string>, i: int)
    requires AllRuns(rs) && 0 <= i < |rs| && |rs[i]| == 16
    requires forall j :: i < j < |rs| ==> |rs[j]| != 16
    ensures Scan(rs).cc == rs[i]
  {
    ScanLast(rs);
    if i < |rs| - 1 {
      ScanCard(rs[..|rs| - 1], i);
    }
  }

  /** Without a 16-digit run there is no card number: shorter and longer runs are ignored. */
  lemma {:induction false} ScanNoCard(rs: seq<string>)
    requires AllRuns(rs)
    requires forall j :: 0 <= j < |rs| ==> |rs[j]| != 16
    ensures Scan(rs).cc == ""
  {
    if |rs| > 0 {
      ScanLast(rs);
      ScanNoCard(rs[..|rs| - 1]);
    }
  }

  /** The month is the first 2-digit run of value at most 12. */
  lemma {:induction false} ScanMonth(rs: seq<string>, i: int)
    requires AllRuns(rs) && 0 <= i < |rs| && IsMonthRun(rs[i])
    requires forall j :: 0 <= j < i ==> !IsMonthRun(rs[j])
    ensures Scan(rs).mm == rs[i]
  {
    ScanLast(rs);
    var n := |rs|;
    if i < n - 1 {
      ScanMonth(rs[..n - 1], i);
    } else {
      ScanNoMonth(rs[..n - 1]);
    }
  }

  /** Without such a run there is no month. */
  lemma {:induction false} ScanNoMonth(rs: seq<string>)
    requires AllRuns(rs)
    requires forall j :: 0 <= j < |rs| ==> !IsMonthRun(rs[j])
    ensures Scan(rs).mm == ""
  {
    if |rs| > 0 {
      ScanLast(rs);
      ScanNoMonth(rs[..|rs| - 1]);
    }
  }

  /** The month, once found, stays. */
  lemma {:induction false} ScanHasMonth(rs: seq<string>, i: int)
    requires AllRuns(rs) && 0 <= i < |rs| && IsMonthRun(rs[i])
    ensures Scan(rs).mm != ""
  {
    ScanLast(rs);
    if i < |rs| - 1 {
      ScanHasMonth(rs[..|rs| - 1], i);
    }
  }

  /** The CVV is the first 3- or 4-digit run that is not a year. */
  lemma {:induction false} ScanCvv(rs: seq<string>, i: int)
    requires AllRuns(rs) && 0 <= i < |rs| && IsCvvRun(rs[i])
    requires forall j :: 0 <= j < i ==> !IsCvvRun(rs[j])
    ensures Scan(rs).cvv == rs[i]
  {
    ScanLast(rs);
    var n := |rs|;
    if i < n - 1 {
      ScanCvv(rs[..n - 1], i);
    } else {
      ScanNoCvv(rs[..n - 1]);
    }
  }

  /** Without such a run there is no CVV; in particular a 4-digit run starting "20" never is one. */
  lemma {:induction false} ScanNoCvv(rs: seq<string>)
    requires AllRuns(rs)
    requires forall j :: 0 <= j < |rs| ==> !IsCvvRun(rs[j])
    ensures Scan(rs).cvv == ""
  {
    if |rs| > 0 {
      ScanLast(rs);
      ScanNoCvv(rs[..|rs| - 1]);
    }
  }

  /** The year is the last 4-digit run starting "20", when there is one. */
  lemma {:induction false} ScanYear(rs: seq<string>, i: int)
    requires AllRuns(rs) && 0 <= i < |rs| && IsYearRun(rs[i])
    requires forall j :: i < j < |rs| ==> !IsYearRun(rs[j])
    ensures Scan(rs).yy == rs[i]
  {
    ScanLast(rs);
    if i < |rs| - 1 {
      ScanYear(rs[..|rs| - 1], i);
    }
  }

  /**
    The run at `i` reaches the short-year branch: a 2-digit run not starting "20" that the
    month branch does not take, because it exceeds 12 or a month was found before it.
   */
  predicate FallsToYear(rs: seq<string>, i: int)
    requires AllRuns(rs) && 0 <= i < |rs|
  {
    IsShortYear(rs[i]) && (!IsMonthRun(rs[i]) || exists j :: 0 <= j < i && IsMonthRun(rs[j]))
  }

  /** No run before index `i` reaches the short-year branch. */
  predicate NoFallBefore(rs: seq<string>, i: int)
    requires AllRuns(rs) && 0 <= i <= |rs|
  {
    forall j :: 0 <= j < i ==> !FallsToYear(rs, j)
  }

  lemma NoFallBeforePrefix(rs: seq<string>, i: int)
    requires AllRuns(rs) && 0 <= i <= |rs| - 1
    ensures AllRuns(rs[..|rs| - 1])
    ensures NoFallBefore(rs[..|rs| - 1], i) <==> NoFallBefore(rs, i)
  {
    ScanLast(rs);
    var pre := rs[..|rs| - 1];
    forall j | 0 <= j < i ensures FallsToYear(pre, j) <==> FallsToYear(rs, j) {
      FallsToYearPrefix(rs, j);
    }
  }

  lemma FallsToYearPrefix(rs: seq<string>, i: int)
    requires AllRuns(rs) && 0 <= i < |rs| - 1
    ensures AllRuns(rs[..|rs| - 1])
    ensures FallsToYear(rs[..|rs| - 1], i) <==> FallsToYear(rs, i)
  {
    ScanLast(rs);
  }

  /** With no 4-digit year and no run reaching the short-year branch, there is no year. */
  lemma {:induction false} ScanNoYear(rs: seq<string>)
    requires AllRuns(rs)
    requires forall j :: 0 <= j < |rs| ==> !IsYearRun(rs[j])
    requires NoFallBefore(rs, |rs|)
    ensures Scan(rs).yy == ""
  {
    if |rs| > 0 {
      var n := |rs|;
      ScanLast(rs);
      NoFallBeforePrefix(rs, n - 1);
      ScanNoYear(rs[..n - 1]);
      if IsShortYear(rs[n - 1]) {
        // not falling to the year branch, the run is taken as the month
        assert !FallsToYear(rs, n - 1);
        var pre := rs[..n - 1];
        assert forall j :: 0 <= j < |pre| ==> !IsMonthRun(pre[j]);
        ScanNoMonth(rs[..n - 1]);
      }
    }
  }

  /**
    Without a 4-digit year, the year is "20" followed by the first run that reaches the
    short-year branch.
   */
  lemma {:induction false} ScanShortYear(rs: seq<string>, i: int)
    requires AllRuns(rs) && 0 <= i < |rs|
    requires forall j :: 0 <= j < |rs| ==> !IsYearRun(rs[j])
    requires FallsToYear(rs, i) && NoFallBefore(rs, i)
    ensures Scan(rs).yy == "20" + rs[i]
  {
    var n := |rs|;
    ScanLast(rs);
    if i < n - 1 {
      FallsToYearPrefix(rs, i);
      NoFallBeforePrefix(rs, i);
      ScanShortYear(rs[..n - 1], i);
    } else {
      NoFallBeforePrefix(rs, n - 1);
      ScanNoYear(rs[..n - 1]);
      if IsMonthRun(rs[i]) {
        var j :| 0 <= j < i && IsMonthRun(rs[j]);
        ScanHasMonth(rs[..n - 1], j);
      }
    }
  }

  /** A 16-digit run always yields a card number. */
  lemma {:induction false} ScanHasCard(rs: seq<string>, i: int)
    requires AllRuns(rs) && 0 <= i < |rs| && |rs[i]| == 16
    ensures Scan(rs).cc != ""
  {
    ScanLast(rs);
    if i < |rs| - 1 {
      ScanHasCard(rs[..|rs| - 1], i);
    }
  }

  /** A run that is not a year and not taken earlier always yields a CVV. */
  lemma {:induction false} ScanHasCvv(rs: seq<string>, i: int)
    requires AllRuns(rs) && 0 <= i < |rs| && IsCvvRun(rs[i])
    ensures Scan(rs).cvv != ""
  {
    ScanLast(rs);
    if i < |rs| - 1 {
      ScanHasCvv(rs[..|rs| - 1], i);
    }
  }

  /** A 4-digit year, or a run reaching the short-year branch, always yields a year. */
  lemma {:induction false} ScanHasYear(rs: seq<string>, i: int)
    requires AllRuns(rs) && 0 <= i < |rs| && (IsYearRun(rs[i]) || FallsToYear(rs, i))
    ensures Scan(rs).yy != ""
  {
    var n := |rs|;
    ScanLast(rs);
    if i < n - 1 {
      if !IsYearRun(rs[i]) { FallsToYearPrefix(rs, i); }
      ScanHasYear(rs[..n - 1], i);
    } else if !IsYearRun(rs[i]) && IsMonthRun(rs[i]) {
      var j :| 0 <= j < i && IsMonthRun(rs[j]);
      ScanHasMonth(rs[..n - 1], j);
    }
  }

  predicate HasCard(rs: seq<string>) {
    exists i :: 0 <= i < |rs| && |rs[i]| == 16
  }

  predicate HasMonth(rs: seq<string>)
    requires AllRuns(rs)
  {
    exists i :: 0 <= i < |rs| && IsMonthRun(rs[i])
  }

  predicate HasYear(rs: seq<string>)
    requires AllRuns(rs)
  {
    exists i :: 0 <= i < |rs| && (IsYearRun(rs[i]) || FallsToYear(rs, i))
  }

  predicate HasCvv(rs: seq<string>) {
    exists i :: 0 <= i < |rs| && IsCvvRun(rs[i])
  }

  /** The scan completes exactly when the runs hold a number, a month, a year and a CVV. */
  lemma ScanComplete(rs: seq<string>)
    requires AllRuns(rs)
    ensures Complete(Scan(rs)) <==> HasCard(rs) && HasMonth(rs) && HasYear(rs) && HasCvv(rs)
  {
    if HasCard(rs) {
      var i :| 0 <= i < |rs| && |rs[i]| == 16;
      ScanHasCard(rs, i);
    } else {
      ScanNoCard(rs);
    }
    if HasMonth(rs) {
      var i :| 0 <= i < |rs| && IsMonthRun(rs[i]);
      ScanHasMonth(rs, i);
    } else {
      ScanNoMonth(rs);
    }
    if HasYear(rs) {
      var i :| 0 <= i < |rs| && (IsYearRun(rs[i]) || FallsToYear(rs, i));
      ScanHasYear(rs, i);
    } else {
      ScanNoYear(rs);
    }
    if HasCvv(rs) {
      var i :| 0 <= i < |rs| && IsCvvRun(rs[i]);
      ScanHasCvv(rs, i);
    } else {
      ScanNoCvv(rs);
    }
  }

  // ---------------------------------------------------------------------------
  // normalize_card
  // ---------------------------------------------------------------------------

  /** `text.replace('\n', ' ').replace('/', ' ')` */
  function Clean(text: string): (t: string)
    ensures |t| == |text|
    ensures '\n' !in t && '/' !in t
    ensures forall i :: 0 <= i < |text| ==>
      t[i] == (if text[i] == '\n' || text[i] == '/' then ' ' else text[i])
  {
    var t1 := Replace(text, '\n', ' ');
    var t := Replace(t1, '/', ' ');
    assert forall i :: 0 <= i < |t| ==> t[i] != '\n' && t[i] != '/';
    t
  }

  /** All four fields were found. */
  predicate Complete(f: Fields) {
    f.cc != "" && f.mm != "" && f.yy != "" && f.cvv != ""
  }

  /**
    `normalize_card`: `None` for empty text or when a field is missing, otherwise the four
    fields joined by '|'.
   */
  function NormalizeCard(text: string): (r: Option<string>)
    ensures |text| == 0 ==> r == None
  {
    if |text| == 0 then None
    else
      var f := Scan(DigitRuns(Clean(text)));
      if Complete(f) then Some(Join([f.cc, f.mm, f.yy, f.cvv], '|')) else None
  }

  /** Cleaning turns separators into other separators, so the runs are those of the text itself. */
  lemma CleanKeepsRuns(text: string)
    ensures DigitRuns(Clean(text)) == DigitRuns(text)
  {
    RunsIgnoreSeparators(text, Clean(text), []);
  }

  /**
    `normalize_card` answers exactly for non-empty text whose digit runs hold a 16-digit
    number, a month, a year and a CVV; it then joins the fields the scan of those runs found.
   */
  lemma NormalizeFields(text: string)
    ensures var rs := DigitRuns(text);
      var f := Scan(rs);
      && (NormalizeCard(text).Some? <==>
            |text| > 0 && HasCard(rs) && HasMonth(rs) && HasYear(rs) && HasCvv(rs))
      && (NormalizeCard(text).Some? ==> NormalizeCard(text).value == Join([f.cc, f.mm, f.yy, f.cvv], '|'))
  {
    CleanKeepsRuns(text);
    ScanComplete(DigitRuns(text));
  }

  /** The fields of a card line: the number, a month, a year starting "20" and a CVV. */
  predicate IsCardLine(fields: seq<string>) {
    && |fields| == 4
    && |fields[0]| == 16 && AllDigits(fields[0])
    && AllDigits(fields[1]) && IsMonthRun(fields[1])
    && AllDigits(fields[2]) && IsYearRun(fields[2])
    && AllDigits(fields[3]) && IsCvvRun(fields[3])
  }

  lemma RunHasNoPipe(s: string)
    requires AllDigits(s)
    ensures '|' !in s
  {
    assert forall i :: 0 <= i < |s| ==> s[i] != '|';
  }

  /**
    A normalized line splits at '|' into exactly four fields: a 16-digit number, a month run,
    a 4-digit year starting "20" and a 3- or 4-digit CVV, taken from the text's digit runs.
   */
  lemma NormalizeShape(text: string)
    ensures var r := NormalizeCard(text);
      r.Some? ==> IsCardLine(Split(r.value, '|'))
  {
    if |text| > 0 {
      var f := Scan(DigitRuns(Clean(text)));
      ScanShape(DigitRuns(Clean(text)));
      if Complete(f) {
        RunHasNoPipe(f.cc);
        RunHasNoPipe(f.mm);
        RunHasNoPipe(f.yy);
        RunHasNoPipe(f.cvv);
        SplitJoinFour(f.cc, f.mm, f.yy, f.cvv, '|');
      }
    }
  }

  /** Scanning the runs of a card line finds its four fields again. */
  lemma ScanCardLine(fields: seq<string>)
    requires IsCardLine(fields)
    ensures AllRuns(fields)
    ensures Scan(fields) == Fields(fields[0], fields[1], fields[2], fields[3])
  {
    var rs := fields;
    assert rs[..3][..2][..1][..0] == [];
    assert rs[..3][..2][..1] == [rs[0]];
    assert rs[..3][..2] == [rs[0], rs[1]];
    assert rs[..3] == [rs[0], rs[1], rs[2]];
    ScanLast(rs);
    ScanLast(rs[..3]);
    ScanLast(rs[..3][..2]);
    ScanLast(rs[..3][..2][..1]);
  }

  /** Normalizing a normalized line gives it back. */
  lemma NormalizeIdempotent(text: string)
    requires NormalizeCard(text).Some?
    ensures NormalizeCard(NormalizeCard(text).value) == NormalizeCard(text)
  {
    var line := NormalizeCard(text).value;
    var f := Scan(DigitRuns(Clean(text)));
    ScanShape(DigitRuns(Clean(text)));
    var fields := [f.cc, f.mm, f.yy, f.cvv];
    assert forall i :: 0 <= i < 4 ==> IsRun(fields[i]);
    RunsOfJoin(fields);
    CleanKeepsRuns(line);
    ScanCardLine(fields);
  }
}

=== FILE: generator.dfy ===
/**
  The card-number pattern generator (`CardGenerator` in gen.py): pattern validation, the
  rewriting of a pattern into its canonical shape, wildcard substitution with a Luhn check
  digit appended, and the batch driver.

  The source draws from `random.randint`; here every draw is an argument. One iteration of a
  batch consumes one `CardDraw`: a stream of digits for the wildcards (the `i`-th wildcard of
  the pattern takes `digits(i)`) and the month, year and CVV attached to a bare card number.
 */
module CardGenerator {
  import opened Wrappers
  import opened Strings
  import Luhn

  /** `random.randint(1, 12)` */
  type Month = m: int | 1 <= m <= 12 witness 1
  /** `random.randint(23, 33)` */
  type Year = y: int | 23 <= y <= 33 witness 23
  /** `random.randint(100, 999)` */
  type Cvv = c: int | 100 <= c <= 999 witness 100

  datatype CardDraw = CardDraw(digits: nat -> Digit, month: Month, year: Year, cvv: Cvv)

  /** The messages the generator returns instead of cards. */
  datatype GenError =
    | InvalidCharacters    // a character outside digits, 'x', 'X' and '|', or nothing left
    | BinTooShort          // the segment before the first '|' has fewer than 6 characters
    | InsufficientDigits   // a pipe-free pattern with fewer than 6 digits
    | LengthOutOfRange     // a pipe-free pattern longer than 19 characters
    | GenerationFailure    // an exception raised while generating

  /** The result of `generate_cards`: the cards and an optional error message. */
  datatype Batch = Batch(cards: seq<string>, error: Option<GenError>)

  predicate IsWild(c: char) {
    c == 'x' || c == 'X'
  }

  /** `pattern.count('x') + pattern.count('X')` */
  function WildCount(p: string): nat {
    Count(p, 'x') + Count(p, 'X')
  }

  /** Every character of `p` that is not a wildcard is a digit. */
  predicate FixedAreDigits(p: string) {
    forall i :: 0 <= i < |p| ==> IsWild(p[i]) || IsDigit(p[i])
  }

  lemma FixedAreDigitsCons(p: string)
    requires |p| > 0
    ensures FixedAreDigits(p) <==> (IsWild(p[0]) || IsDigit(p[0])) && FixedAreDigits(p[1..])
  {
    assert forall i :: 0 <= i < |p| - 1 ==> p[1..][i] == p[i + 1];
  }

  // ---------------------------------------------------------------------------
  // generate_valid_card
  // ---------------------------------------------------------------------------

  /**
    The loop of `generate_valid_card` from a given `digit_index` on: each wildcard takes the
    next drawn digit, every other character stays.
   */
  function Fill(pattern: string, digits: nat -> Digit, digitIndex: nat): (r: string)
    ensures |r| == |pattern|
    ensures AllDigits(r) <==> FixedAreDigits(pattern)
  {
    if |pattern| == 0 then []
    else
      var c := if IsWild(pattern[0]) then DigitChar(digits(digitIndex)) else pattern[0];
      var next := if IsWild(pattern[0]) then digitIndex + 1 else digitIndex;
      var rest := Fill(pattern[1..], digits, next);
      AllDigitsCons(c, rest);
      FixedAreDigitsCons(pattern);
      [c] + rest
  }

  /**
    `r` carries the pattern's characters with its wildcards substituted in order: the wildcard
    at index `j` is the `WildCount(pattern[..j])`-th one and receives that drawn digit.
   */
  predicate PlacesDraws(pattern: string, digits: nat -> Digit, r: string) {
    && |pattern| <= |r|
    && forall j :: 0 <= j < |pattern| ==>
         r[j] == if IsWild(pattern[j]) then DigitChar(digits(WildCount(pattern[..j]))) else pattern[j]
  }

  lemma {:induction false} FillPlacesDigitsAt(pattern: string, digits: nat -> Digit, k: nat, j: int)
    requires 0 <= j < |pattern|
    ensures Fill(pattern, digits, k)[j] ==
      if IsWild(pattern[j]) then DigitChar(digits(k + WildCount(pattern[..j]))) else pattern[j]
  {
    if j > 0 {
      var tail := pattern[1..];
      var next := if IsWild(pattern[0]) then k + 1 else k;
      FillPlacesDigitsAt(tail, digits, next, j - 1);
      assert pattern[..j][1..] == tail[..j - 1];
      assert tail[j - 1] == pattern[j];
    }
  }

  /** The `i`-th drawn digit lands at the `i`-th wildcard, and every other character keeps its index. */
  lemma FillPlacesDigits(pattern: string, digits: nat -> Digit)
    ensures PlacesDraws(pattern, digits, Fill(pattern, digits, 0))
  {
    forall j | 0 <= j < |pattern|
      ensures Fill(pattern, digits, 0)[j] ==
        if IsWild(pattern[j]) then DigitChar(digits(WildCount(pattern[..j]))) else pattern[j]
    {
      FillPlacesDigitsAt(pattern, digits, 0, j);
    }
  }

  /**
    `generate_valid_card`. Without wildcards the last character is dropped and replaced by the
    check digit; with wildcards they are filled and the check digit is appended. `None` is the
    ValueError the Luhn code raises on a character that is not a digit.
   */
  function GenerateValidCard(pattern: string, digits: nat -> Digit): (r: Option<string>)
    ensures r.Some? <==>
      if WildCount(pattern) == 0 then AllDigits(DropLast(pattern)) else FixedAreDigits(pattern)
    ensures pattern == [] ==> r == Some("0")
  {
    if WildCount(pattern) == 0 then
      var partial := DropLast(pattern);
      assert DigitChar(0) == '0';
      assert pattern == [] ==> partial + [DigitChar(0)] == "0";
      match Luhn.CalculateCheckDigit(partial)
      case None => None
      case Some(check) => Some(partial + [DigitChar(check)])
    else
      var filled := Fill(pattern, digits, 0);
      match Luhn.CalculateCheckDigit(filled)
      case None => None
      case Some(check) => Some(filled + [DigitChar(check)])
  }

  /**
    A non-empty pattern without wildcards keeps its length and all but its last character, and
    comes out Luhn-valid.
   */
  lemma FixedPatternCard(pattern: string, digits: nat -> Digit)
    requires WildCount(pattern) == 0 && |pattern| >= 1 && AllDigits(DropLast(pattern))
    ensures var r := GenerateValidCard(pattern, digits);
      && r.Some?
      && |r.value| == |pattern|
      && r.value[..|pattern| - 1] == pattern[..|pattern| - 1]
      && Luhn.IsLuhnValid(r.value)
  {
    var partial := DropLast(pattern);
    Luhn.CheckDigitMakesValid(partial);
    var r := partial + [DigitChar(Luhn.CalculateCheckDigit(partial).value)];
    assert r[..|pattern| - 1] == partial;
  }

  /**
    A pattern with wildcards grows by the appended check digit, keeps its fixed characters,
    receives the drawn digits in order, and comes out Luhn-valid.
   */
  lemma WildPatternCard(pattern: string, digits: nat -> Digit)
    requires WildCount(pattern) >= 1 && FixedAreDigits(pattern)
    ensures var r := GenerateValidCard(pattern, digits);
      && r.Some?
      && |r.value| == |pattern| + 1
      && PlacesDraws(pattern, digits, r.value)
      && Luhn.IsLuhnValid(r.value)
  {
    var filled := Fill(pattern, digits, 0);
    FillPlacesDigits(pattern, digits);
    Luhn.CheckDigitMakesValid(filled);
    var r := filled + [DigitChar(Luhn.CalculateCheckDigit(filled).value)];
    assert forall j :: 0 <= j < |pattern| ==> r[j] == filled[j];
  }

  // ---------------------------------------------------------------------------
  // parse_input_pattern and validate_pattern
  // ---------------------------------------------------------------------------

  /** `re.match(r'^\d{6,}$', s)`: six or more digits. */
  predicate IsBareBin(s: string) {
    AllDigits(s) && |s| >= 6
  }

  /**
    `parse_input_pattern`: after removing spaces, an all-digit string of at least six digits
    becomes its first six digits followed by wildcards; a pipe-delimited string keeps its pipes
    only when it has at least four segments; anything else is returned as it is.
   */
  function ParseInputPattern(input: string): (r: string)
    ensures var s := Remove(input, ' ');
      && (IsBareBin(s) ==>
            |r| == 15 && r[..6] == s[..6] && AllDigits(r[..6]) && forall i :: 6 <= i < 15 ==> r[i] == 'x')
      && (!IsBareBin(s) && '|' in s && Count(s, '|') >= 3 ==> r == s)
      && (!IsBareBin(s) && '|' in s && Count(s, '|') < 3 ==> r == Remove(s, '|'))
      && (!IsBareBin(s) && '|' !in s ==> r == s)
  {
    var s := Remove(input, ' ');
    if IsBareBin(s) && '|' !in s then
      // the remaining length is always 16 - 6 - 1 = 9, so the source's branch for a
      // non-positive remaining length (gen.py:92-93) is never taken
      var bin := s[..6];
      RepeatElements('x', 16 - |bin| - 1);
      bin + Repeat('x', 16 - |bin| - 1)
    else if '|' in s then
      if |Split(s, '|')| >= 4 then s else Remove(s, '|')
    else
      s
  }

  /** The character set of `bin_pattern`: digits, 'x', 'X' and '|'. */
  predicate InAlphabet(c: char) {
    IsDigit(c) || IsWild(c) || c == '|'
  }

  /** `bin_pattern.match(s)`: at least one character, all of them in the alphabet. */
  predicate MatchesAlphabet(s: string) {
    |s| > 0 && forall i :: 0 <= i < |s| ==> InAlphabet(s[i])
  }

  /**
    `validate_pattern`: removes spaces, then reports the first failing check in the source's
    order, or returns the space-free pattern.
   */
  function ValidatePattern(pattern: string): (r: Result<string, GenError>)
    ensures var s := Remove(pattern, ' ');
      && (r.Ok? <==>
            MatchesAlphabet(s) && if '|' in s then |Split(s, '|')[0]| >= 6 else CountDigits(s) >= 6 && |s| <= 19)
      && (r.Ok? ==> r.value == s)
      && (r == Err(InvalidCharacters) <==> !MatchesAlphabet(s))
      && (r == Err(BinTooShort) <==> MatchesAlphabet(s) && '|' in s && |Split(s, '|')[0]| < 6)
      && (r == Err(InsufficientDigits) <==> MatchesAlphabet(s) && '|' !in s && CountDigits(s) < 6)
      && (r == Err(LengthOutOfRange) <==>
            MatchesAlphabet(s) && '|' !in s && CountDigits(s) >= 6 && |s| > 19)
      && r != Err(GenerationFailure)
  {
    var s := Remove(pattern, ' ');
    if !MatchesAlphabet(s) then Err(InvalidCharacters)
    else if '|' in s && |Split(s, '|')[0]| < 6 then Err(BinTooShort)
    else if '|' !in s && CountDigits(s) < 6 then Err(InsufficientDigits)
    else if '|' !in s && (|s| < 6 || |s| > 19) then Err(LengthOutOfRange)
    else Ok(s)
  }

  // ---------------------------------------------------------------------------
  // generate_from_pattern
  // ---------------------------------------------------------------------------

  /** Quad mode: at least three pipes and a first segment of at least six characters. */
  predicate IsQuad(p: string) {
    '|' in p && Count(p, '|') >= 3 && |Split(p, '|')[0]| >= 6
  }

  /** The pattern handed to `generate_valid_card`: in quad mode the first segment padded with 'x' to 16. */
  function CardPattern(p: string): string {
    if IsQuad(p) then
      var bin := Split(p, '|')[0];
      bin + Repeat('x', 16 - |bin|)
    else p
  }

  /** `str(random.randint(1, 12)).zfill(2)` */
  function MonthText(m: Month): string {
    ZFill(DecimalString(m), 2)
  }

  /** `str(random.randint(23, 33)).zfill(2)` */
  function YearText(y: Year): string {
    ZFill(DecimalString(y), 2)
  }

  /** `str(random.randint(100, 999))` */
  function CvvText(c: Cvv): string {
    DecimalString(c)
  }

  /** One iteration of either loop of `generate_from_pattern`. */
  function GenerateRecord(p: string, draw: CardDraw): (r: Option<string>)
    ensures r.Some? <==> GenerateValidCard(CardPattern(p), draw.digits).Some?
    ensures !IsQuad(p) && !('|' !in p && |p| >= 6) ==> r == GenerateValidCard(p, draw.digits)
  {
    if IsQuad(p) then
      var parts := Split(p, '|');
      // three or more pipes give at least four segments, so the random defaults for a
      // missing month, year or CVV (gen.py:118-120) are never used
      match GenerateValidCard(CardPattern(p), draw.digits)
      case None => None
      case Some(number) => Some(Join([number, parts[1], parts[2], parts[3]], '|'))
    else
      match GenerateValidCard(p, draw.digits)
      case None => None
      case Some(number) =>
        if '|' !in p && |p| >= 6 then
          Some(Join([number, MonthText(draw.month), YearText(draw.year), CvvText(draw.cvv)], '|'))
        else
          Some(number)
  }

  /**
    `n` is a card number `generate_valid_card` can make of `pattern` with the wildcard digits
    `digits`: Luhn-valid, and either the pattern with its last character replaced (no wildcards)
    or the pattern with its wildcards filled in order and one digit appended.
   */
  predicate IsCardFor(pattern: string, digits: nat -> Digit, n: string) {
    && |pattern| >= 1
    && Luhn.IsLuhnValid(n)
    && if WildCount(pattern) == 0 then
         |n| == |pattern| && n[..|pattern| - 1] == pattern[..|pattern| - 1]
       else
         |n| == |pattern| + 1 && PlacesDraws(pattern, digits, n)
  }

  lemma NoWildcardsAllDigits(p: string)
    requires FixedAreDigits(p) && WildCount(p) == 0
    ensures AllDigits(p)
  {
    assert 'x' !in p && 'X' !in p;
    assert forall i :: 0 <= i < |p| ==> p[i] in p;
  }

  lemma DigitsHaveNoPipe(s: string)
    requires AllDigits(s)
    ensures '|' !in s
  {
    assert forall i :: 0 <= i < |s| ==> s[i] != '|';
  }

  /** A non-empty pattern whose fixed characters are digits always yields a card for it. */
  lemma GeneratedCard(pattern: string, digits: nat -> Digit)
    requires |pattern| >= 1 && FixedAreDigits(pattern)
    ensures var r := GenerateValidCard(pattern, digits);
      r.Some? && IsCardFor(pattern, digits, r.value) && '|' !in r.value
  {
    if WildCount(pattern) == 0 {
      NoWildcardsAllDigits(pattern);
      FixedPatternCard(pattern, digits);
    } else {
      WildPatternCard(pattern, digits);
    }
    Luhn.LuhnValidIsDigits(GenerateValidCard(pattern, digits).value);
    DigitsHaveNoPipe(GenerateValidCard(pattern, digits).value);
  }

  /**
    The quad-mode card number: made from the BIN segment padded with wildcards to 16
    characters, so 17 digits long when the segment is shorter than 16.
   */
  lemma QuadNumber(bin: string, digits: nat -> Digit)
    requires |bin| >= 6 && FixedAreDigits(bin)
    ensures var cp := bin + Repeat('x', 16 - |bin|);
      var r := GenerateValidCard(cp, digits);
      && r.Some? && IsCardFor(cp, digits, r.value) && '|' !in r.value
      && |r.value| == (if |bin| < 16 then 17 else if WildCount(bin) == 0 then |bin| else |bin| + 1)
  {
    var cp := bin + Repeat('x', 16 - |bin|);
    PaddedBin(bin);
    GeneratedCard(cp, digits);
    assert |cp| == if |bin| < 16 then 16 else |bin|;
  }

  /** Padding with 'x' keeps the fixed characters digits and adds one wildcard per pad character. */
  lemma PaddedBin(bin: string)
    requires FixedAreDigits(bin)
    ensures var cp := bin + Repeat('x', 16 - |bin|);
      && FixedAreDigits(cp)
      && WildCount(cp) == WildCount(bin) + (if |bin| < 16 then 16 - |bin| else 0)
  {
    var pad := Repeat('x', 16 - |bin|);
    RepeatElements('x', 16 - |bin|);
    CountConcat(bin, pad, 'x');
    CountConcat(bin, pad, 'X');
    CountRepeat('x', 16 - |bin|, 'x');
    CountRepeat('x', 16 - |bin|, 'X');
    var cp := bin + pad;
    forall i | 0 <= i < |cp| ensures IsWild(cp[i]) || IsDigit(cp[i]) {
      if i >= |bin| { assert cp[i] == pad[i - |bin|]; }
    }
  }

  /**
    In quad mode every record has four fields: the card number for the padded BIN segment,
    then the pattern's second to fourth segments unchanged.
   */
  lemma QuadRecordShape(p: string, draw: CardDraw)
    requires IsQuad(p) && FixedAreDigits(Split(p, '|')[0])
    ensures var parts := Split(p, '|');
      var bin := parts[0];
      var r := GenerateRecord(p, draw);
      && r.Some?
      && var fields := Split(r.value, '|');
      && |fields| == 4
      && fields[1] == parts[1] && fields[2] == parts[2] && fields[3] == parts[3]
      && IsCardFor(CardPattern(p), draw.digits, fields[0])
      && |fields[0]| == (if |bin| < 16 then 17 else if WildCount(bin) == 0 then |bin| else |bin| + 1)
  {
    var parts := Split(p, '|');
    var bin := parts[0];
    assert CardPattern(p) == bin + Repeat('x', 16 - |bin|);
    QuadNumber(bin, draw.digits);
    var number := GenerateValidCard(CardPattern(p), draw.digits).value;
    var line := Join([number, parts[1], parts[2], parts[3]], '|');
    assert GenerateRecord(p, draw) == Some(line);
    assert '|' !in parts[1] && '|' !in parts[2] && '|' !in parts[3];
    SplitJoinFour(number, parts[1], parts[2], parts[3], '|');
    assert Split(line, '|') == [number, parts[1], parts[2], parts[3]];
  }

  /**
    A pipe-free pattern of six or more characters gives four fields: a Luhn-valid number for
    the pattern, a two-digit month, a two-digit year and a three-digit CVV whose values are the
    drawn ones.
   */
  lemma PlainRecordShape(p: string, draw: CardDraw)
    requires '|' !in p && |p| >= 6 && FixedAreDigits(p)
    ensures var r := GenerateRecord(p, draw);
      && r.Some?
      && var fields := Split(r.value, '|');
      && |fields| == 4
      && IsCardFor(p, draw.digits, fields[0])
      && |fields[1]| == 2 && AllDigits(fields[1]) && Value(fields[1]) == draw.month
      && |fields[2]| == 2 && AllDigits(fields[2]) && Value(fields[2]) == draw.year
      && |fields[3]| == 3 && AllDigits(fields[3]) && Value(fields[3]) == draw.cvv
  {
    GeneratedCard(p, draw.digits);
    var number := GenerateValidCard(p, draw.digits).value;
    var mm, yy, cvv := MonthText(draw.month), YearText(draw.year), CvvText(draw.cvv);
    DrawnFields(draw);
    var line := Join([number, mm, yy, cvv], '|');
    assert GenerateRecord(p, draw) == Some(line);
    SplitJoinFour(number, mm, yy, cvv, '|');
    assert Split(line, '|') == [number, mm, yy, cvv];
  }

  /** The drawn month, year and CVV render as pipe-free numerals of two, two and three digits. */
  lemma DrawnFields(draw: CardDraw)
    ensures var mm, yy, cvv := MonthText(draw.month), YearText(draw.year), CvvText(draw.cvv);
      && |mm| == 2 && AllDigits(mm) && Value(mm) == draw.month && '|' !in mm
      && |yy| == 2 && AllDigits(yy) && Value(yy) == draw.year && '|' !in yy
      && |cvv| == 3 && AllDigits(cvv) && Value(cvv) == draw.cvv && '|' !in cvv
  {
    TwoDigitNumeral(draw.month);
    TwoDigitNumeral(draw.year);
    DecimalStringLength(draw.cvv);
    DigitsHaveNoPipe(MonthText(draw.month));
    DigitsHaveNoPipe(YearText(draw.year));
    DigitsHaveNoPipe(CvvText(draw.cvv));
  }

  /**
    Gathers the outcomes of successive iterations: the cards in order when every iteration
    produced one, `None` (the first exception) otherwise.
   */
  function Collect(outcomes: seq<Option<string>>): (r: Option<seq<string>>)
    ensures r.Some? ==> |r.value| == |outcomes|
  {
    if |outcomes| == 0 then Some([])
    else
      var last := outcomes[|outcomes| - 1];
      match Collect(DropLast(outcomes))
      case None => None
      case Some(earlier) =>
        match last
        case None => None
        case Some(card) => Some(earlier + [card])
  }

  /** The gathering succeeds exactly when every outcome is a card, and then keeps them in order. */
  lemma {:induction false} CollectAll(outcomes: seq<Option<string>>)
    ensures Collect(outcomes).Some? <==> forall i :: 0 <= i < |outcomes| ==> outcomes[i].Some?
    ensures Collect(outcomes).Some? ==>
      forall i :: 0 <= i < |outcomes| ==> Some(Collect(outcomes).value[i]) == outcomes[i]
  {
    if |outcomes| > 0 {
      var earlier := DropLast(outcomes);
      CollectAll(earlier);
      assert forall i :: 0 <= i < |earlier| ==> earlier[i] == outcomes[i];
    }
  }

  /** Gathering one more outcome extends the gathered cards by it, or fails. */
  lemma CollectSnoc(outcomes: seq<Option<string>>, last: Option<string>)
    ensures Collect(outcomes + [last]) ==
      match Collect(outcomes)
      case None => None
      case Some(earlier) =>
        match last
        case None => None
        case Some(card) => Some(earlier + [card])
  {
    assert DropLast(outcomes + [last]) == outcomes;
  }

  /** The outcome of each of the first `amount` iterations, iteration `i` consuming `draws[i]`. */
  function Outcomes(iteration: CardDraw -> Option<string>, amount: nat, draws: seq<CardDraw>): (os: seq<Option<string>>)
    requires amount <= |draws|
    ensures |os| == amount
  {
    if amount == 0 then [] else Outcomes(iteration, amount - 1, draws) + [iteration(draws[amount - 1])]
  }

  lemma {:induction false} OutcomesAt(iteration: CardDraw -> Option<string>, amount: nat, draws: seq<CardDraw>, i: int)
    requires 0 <= i < amount <= |draws|
    ensures Outcomes(iteration, amount, draws)[i] == iteration(draws[i])
  {
    if i < amount - 1 {
      OutcomesAt(iteration, amount - 1, draws, i);
    }
  }

  /** Iterations `0..n` split into `0..n-1` and a run of one iteration on the last draw alone. */
  lemma OutcomesStep(iteration: CardDraw -> Option<string>, n: nat, draws: seq<CardDraw>)
    requires 1 <= n <= |draws|
    ensures Collect(Outcomes(iteration, n, draws)) ==
      match Collect(Outcomes(iteration, n - 1, draws))
      case None => None
      case Some(earlier) =>
        match Collect(Outcomes(iteration, 1, [draws[n - 1]]))
        case None => None
        case Some(cards) => Some(earlier + cards)
  {
    var outcome := iteration(draws[n - 1]);
    assert [draws[n - 1]][0] == draws[n - 1];
    assert Outcomes(iteration, 1, [draws[n - 1]]) == [] + [outcome];
    assert Outcomes(iteration, n, draws) == Outcomes(iteration, n - 1, draws) + [outcome];
    CollectSnoc([], outcome);
    CollectSnoc(Outcomes(iteration, n - 1, draws), outcome);
    match outcome
    case None =>
    case Some(card) =>
      assert [] + [outcome] == [outcome];
      assert [] + [card] == [card];
      assert Collect(Outcomes(iteration, 1, [draws[n - 1]])) == Some([card]);
  }

  /** One iteration of `generate_from_pattern` on `p`. */
  function Iteration(p: string): CardDraw -> Option<string> {
    draw => GenerateRecord(p, draw)
  }

  /**
    `generate_from_pattern(pattern, amount)`: `amount` iterations, an exception in any of them
    propagating out of the call.
   */
  function GenerateFromPattern(p: string, amount: int, draws: seq<CardDraw>): (r: Option<seq<string>>)
    requires amount <= |draws|
    ensures r.Some? ==> |r.value| == (if amount > 0 then amount else 0)
  {
    Collect(Outcomes(Iteration(p), if amount > 0 then amount else 0, draws))
  }

  /**
    `generate_from_pattern` succeeds exactly when every iteration does, and then its `i`-th card
    is the record generated from the `i`-th draw.
   */
  lemma GenerateFromPatternRecords(p: string, amount: int, draws: seq<CardDraw>)
    requires amount <= |draws|
    ensures var r := GenerateFromPattern(p, amount, draws);
      && (r.Some? <==> forall i :: 0 <= i < amount ==> GenerateRecord(p, draws[i]).Some?)
      && (r.Some? ==> forall i :: 0 <= i < |r.value| ==> Some(r.value[i]) == GenerateRecord(p, draws[i]))
  {
    var os := Outcomes(Iteration(p), if amount > 0 then amount else 0, draws);
    CollectAll(os);
    forall i | 0 <= i < |os| ensures os[i] == GenerateRecord(p, draws[i]) {
      OutcomesAt(Iteration(p), |os|, draws, i);
    }
  }

  // ---------------------------------------------------------------------------
  // generate_cards
  // ---------------------------------------------------------------------------

  /** Splitting off the last iteration as a call of its own for a single card. */
  lemma BatchStep(parsed: string, n: int, draws: seq<CardDraw>)
    requires 1 <= n <= |draws|
    ensures GenerateFromPattern(parsed, n, draws) ==
      match GenerateFromPattern(parsed, n - 1, draws)
      case None => None
      case Some(earlier) =>
        match GenerateFromPattern(parsed, 1, [draws[n - 1]])
        case None => None
        case Some(cards) => Some(earlier + cards)
  {
    OutcomesStep(Iteration(parsed), n, draws);
  }

  /**
    The loop of `generate_cards`: `amount` calls of `generate_from_pattern(parsed, 1)`, the
    cards concatenated in order; it agrees with one call for the whole amount.
   */
  function BatchLoop(parsed: string, n: int, draws: seq<CardDraw>): (r: Option<seq<string>>)
    requires n <= |draws|
    ensures r == GenerateFromPattern(parsed, n, draws)
    decreases n
  {
    if n <= 0 then Some([])
    else
      BatchStep(parsed, n, draws);
      match BatchLoop(parsed, n - 1, draws)
      case None => None
      case Some(earlier) =>
        match GenerateFromPattern(parsed, 1, [draws[n - 1]])
        case None => None
        case Some(cards) => Some(earlier + cards)
  }

  /**
    `generate_cards`: a validation failure returns no cards and its message before anything is
    generated; otherwise the rewritten pattern is generated `amount` times, and a failure in
    any iteration discards every card produced so far.
   */
  function GenerateCards(input: string, amount: int, draws: seq<CardDraw>): (b: Batch)
    requires amount <= |draws|
    ensures b.error.Some? ==> b.cards == []
    ensures ValidatePattern(input).Err? ==> b == Batch([], Some(ValidatePattern(input).error))
    ensures ValidatePattern(input).Ok? ==>
      var g := GenerateFromPattern(ParseInputPattern(ValidatePattern(input).value), amount, draws);
      b == if g.Some? then Batch(g.value, None) else Batch([], Some(GenerationFailure))
  {
    match ValidatePattern(input)
    case Err(message) => Batch([], Some(message))
    case Ok(v) =>
      var parsed := ParseInputPattern(v);
      match BatchLoop(parsed, amount, draws)
      case None => Batch([], Some(GenerationFailure))
      case Some(cards) => Batch(cards, None)
  }

  // ---------------------------------------------------------------------------
  // End-to-end properties
  // ---------------------------------------------------------------------------

  lemma FixedHaveNoPipe(p: string)
    requires FixedAreDigits(p)
    ensures '|' !in p
  {
    assert forall i :: 0 <= i < |p| ==> p[i] != '|';
  }

  /** A pipe-free string built from the characters of an alphabet-only string has only digits and wildcards. */
  lemma FixedFromAlphabet(s: string, t: string)
    requires forall i :: 0 <= i < |s| ==> InAlphabet(s[i])
    requires forall x :: x in t ==> x in s
    requires '|' !in t
    ensures FixedAreDigits(t)
  {
    forall i | 0 <= i < |t| ensures IsWild(t[i]) || IsDigit(t[i]) {
      assert t[i] in t;
      var k :| 0 <= k < |s| && s[k] == t[i];
      assert InAlphabet(s[k]);
    }
  }

  /** A bare BIN is rewritten into its first six digits and nine wildcards. */
  lemma BareBinParsed(v: string)
    requires IsBareBin(v) && ' ' !in v
    ensures var p := ParseInputPattern(v);
      '|' !in p && |p| >= 6 && FixedAreDigits(p)
  {
    RemoveAbsent(v, ' ');
    var p := ParseInputPattern(v);
    forall i | 0 <= i < |p| ensures IsWild(p[i]) || IsDigit(p[i]) {
      if i < 6 { assert p[i] == p[..6][i]; }
    }
    FixedHaveNoPipe(p);
  }

  /** A piped pattern with fewer than three pipes loses its pipes and keeps at least its first segment's length. */
  lemma ShortPipedParsed(v: string)
    requires ' ' !in v && '|' in v && Count(v, '|') < 3 && !IsBareBin(v)
    requires forall i :: 0 <= i < |v| ==> InAlphabet(v[i])
    requires |Split(v, '|')[0]| >= 6
    ensures var p := ParseInputPattern(v);
      '|' !in p && |p| >= 6 && FixedAreDigits(p)
  {
    RemoveAbsent(v, ' ');
    SplitHeadLength(v, '|');
    RemoveContents(v, '|');
    FixedFromAlphabet(v, Remove(v, '|'));
  }

  /**
    A validated pattern is rewritten either into a quad pattern (left as it
    was) whose BIN segment holds only digits and wildcards, or into a pipe-free pattern of at
    least six digits and wildcards.
   */
  lemma ParsedPatternShape(input: string)
    requires ValidatePattern(input).Ok?
    ensures var v := ValidatePattern(input).value;
      var p := ParseInputPattern(v);
      || (IsQuad(p) && p == v && FixedAreDigits(Split(p, '|')[0]))
      || ('|' !in p && |p| >= 6 && FixedAreDigits(p))
  {
    var v := Remove(input, ' ');
    assert forall i :: 0 <= i < |v| ==> InAlphabet(v[i]);
    if IsBareBin(v) {
      BareBinParsed(v);
    } else if '|' in v && Count(v, '|') >= 3 {
      RemoveAbsent(v, ' ');
      SplitContents(v, '|');
      FixedFromAlphabet(v, Split(v, '|')[0]);
    } else if '|' in v {
      ShortPipedParsed(v);
    } else {
      RemoveAbsent(v, ' ');
      FixedFromAlphabet(v, v);
    }
  }

  /** Every iteration on a validated, rewritten pattern yields a four-field record with a Luhn-valid number. */
  lemma ParsedRecordShape(input: string, draw: CardDraw)
    requires ValidatePattern(input).Ok?
    ensures var r := GenerateRecord(ParseInputPattern(ValidatePattern(input).value), draw);
      && r.Some?
      && |Split(r.value, '|')| == 4
      && Luhn.IsLuhnValid(Split(r.value, '|')[0])
  {
    var p := ParseInputPattern(ValidatePattern(input).value);
    ParsedPatternShape(input);
    if IsQuad(p) {
      QuadRecordShape(p, draw);
    } else {
      PlainRecordShape(p, draw);
    }
  }

  /**
    `generate_cards` on a pattern that passes validation never reports an error: it returns
    `amount` cards, the `i`-th being the record of the `i`-th draw, each of four fields with a
    Luhn-valid card number first.
   */
  lemma GenerateCardsSucceeds(input: string, amount: int, draws: seq<CardDraw>)
    requires ValidatePattern(input).Ok? && amount <= |draws|
    ensures var b := GenerateCards(input, amount, draws);
      var p := ParseInputPattern(ValidatePattern(input).value);
      && b.error == None
      && |b.cards| == (if amount > 0 then amount else 0)
      && forall i :: 0 <= i < |b.cards| ==>
           && Some(b.cards[i]) == GenerateRecord(p, draws[i])
           && |Split(b.cards[i], '|')| == 4
           && Luhn.IsLuhnValid(Split(b.cards[i], '|')[0])
  {
    var p := ParseInputPattern(ValidatePattern(input).value);
    forall i | 0 <= i < amount ensures GenerateRecord(p, draws[i]).Some? {
      ParsedRecordShape(input, draws[i]);
    }
    GenerateFromPatternRecords(p, amount, draws);
    forall i | 0 <= i < amount
      ensures |Split(GenerateRecord(p, draws[i]).value, '|')| == 4
      ensures Luhn.IsLuhnValid(Split(GenerateRecord(p, draws[i]).value, '|')[0])
    {
      ParsedRecordShape(input, draws[i]);
    }
  }
}

=== FILE: luhn.dfy ===
/**
  The checksum engine of the card generator: the Luhn modulus-10 "double-add-double"
  check digit of ISO/IEC 7812-1, Annex B, computed the way `luhn_checksum` and
  `calculate_check_digit` compute it (two strides from the right, digit sums of doubles).
 */
module Luhn {
  import opened Wrappers
  import opened Strings

  /** The digit values of a string of ASCII digits, position by position. */
  function Values(s: string): (ds: seq<Digit>)
    requires AllDigits(s)
    ensures |ds| == |s|
    ensures forall i :: 0 <= i < |s| ==> ds[i] == DigitValue(s[i])
  {
    if |s| == 0 then [] else [DigitValue(s[0])] + Values(s[1..])
  }

  /** `[int(d) for d in s]`: fails (a ValueError in the source) on any non-digit character. */
  function DigitsOf(s: string): (r: Option<seq<Digit>>)
    ensures r.Some? <==> AllDigits(s)
    ensures r.Some? ==> |r.value| == |s| && forall i :: 0 <= i < |s| ==> r.value[i] == DigitValue(s[i])
  {
    if AllDigits(s) then Some(Values(s)) else None
  }

  /** `ds[-1::-2]`: the last element, then every second element moving left. */
  function RightStride(ds: seq<Digit>): (r: seq<Digit>)
    ensures |r| == (|ds| + 1) / 2
  {
    if |ds| == 0 then []
    else if |ds| == 1 then [ds[0]]
    else [ds[|ds| - 1]] + RightStride(ds[..|ds| - 2])
  }

  /** The `k`-th element of the stride is the digit `2k` places left of the last one. */
  lemma {:induction false} RightStrideAt(ds: seq<Digit>, k: int)
    requires 0 <= k < |RightStride(ds)|
    ensures RightStride(ds)[k] == ds[|ds| - 1 - 2 * k]
    decreases |ds|
  {
    if |ds| >= 2 && k > 0 {
      var front := ds[..|ds| - 2];
      RightStrideAt(front, k - 1);
      assert RightStride(ds)[k] == RightStride(front)[k - 1];
      assert front[|front| - 1 - 2 * (k - 1)] == ds[|ds| - 1 - 2 * k];
    }
  }

  function Sum(ds: seq<Digit>): nat {
    if |ds| == 0 then 0 else ds[0] + Sum(ds[1..])
  }

  /** `sum(digits_of(n))`: the sum of the decimal digits of `n`. */
  function DecimalDigitSum(n: nat): nat {
    if n < 10 then n else DecimalDigitSum(n / 10) + n % 10
  }

  /** `sum(digits_of(d * 2))`: the digit sum of a doubled digit. */
  function Doubled(d: Digit): nat {
    DecimalDigitSum(2 * (d as int))
  }

  /** Annex B's rule for a doubled digit: a two-digit product loses nine. */
  lemma DoubledDigitRule(d: Digit)
    ensures Doubled(d) == if d < 5 then 2 * d else 2 * d - 9
  {
    var n := 2 * (d as int);
    if d >= 5 {
      assert n / 10 == 1 && n % 10 == n - 10;
      assert DecimalDigitSum(n) == DecimalDigitSum(1) + (n - 10);
    }
  }

  /** The loop `for d in even_digits: checksum += sum(digits_of(d * 2))`. */
  function DoubledSum(ds: seq<Digit>): nat {
    if |ds| == 0 then 0 else Doubled(ds[0]) + DoubledSum(ds[1..])
  }

  /** The checksum before the final `% 10`: undoubled odd positions plus reduced doubled even ones. */
  function Total(ds: seq<Digit>): nat {
    Sum(RightStride(ds)) + DoubledSum(RightStride(DropLast(ds)))
  }

  /** `luhn_checksum`: `None` where the source raises on a non-digit character. */
  function LuhnChecksum(s: string): (r: Option<Digit>)
    ensures r.Some? <==> AllDigits(s)
    ensures r.Some? ==> r.value == Total(Values(s)) % 10
  {
    match DigitsOf(s)
    case None => None
    case Some(ds) => Some(Total(ds) % 10)
  }

  /** A number passes the Luhn check when its checksum is zero. */
  predicate IsLuhnValid(s: string) {
    LuhnChecksum(s) == Some(0)
  }

  /** A one-digit number contributes its digit undoubled. */
  lemma SingleDigitTotal(d: Digit)
    ensures Total([d]) == d
  {
    assert DropLast([d]) == [];
    assert RightStride([d]) == [d];
    SumCons(d, []);
    assert [d] + [] == [d];
  }

  lemma SumCons(d: Digit, t: seq<Digit>)
    ensures Sum([d] + t) == d + Sum(t)
  {
    assert ([d] + t)[1..] == t;
  }

  lemma ZeroIsValid()
    ensures LuhnChecksum("0") == Some(0)
  {
    var zero: seq<Digit> := [0];
    assert AllDigits("0");
    assert Values("0") == zero;
    SingleDigitTotal(0);
  }

  /** `calculate_check_digit`: the digit that tops the checksum of `partial + '0'` up to a multiple of 10. */
  function CalculateCheckDigit(partial: string): (r: Option<Digit>)
    ensures r.Some? <==> AllDigits(partial)
    ensures partial == [] ==> r == Some(0)
  {
    assert AllDigits(partial + "0") <==> AllDigits(partial) by {
      assert forall i :: 0 <= i < |partial| ==> (partial + "0")[i] == partial[i];
    }
    assert partial == [] ==> LuhnChecksum(partial + "0") == Some(0) by {
      if partial == [] {
        assert partial + "0" == "0";
        ZeroIsValid();
      }
    }
    match LuhnChecksum(partial + "0")
    case None => None
    case Some(c) => Some((10 - c) % 10)
  }

  // ---------------------------------------------------------------------------
  // Reference: the weighting of ISO/IEC 7812-1, Annex B, position by position
  // ---------------------------------------------------------------------------

  /** The contribution of digit `d` at position `pos`, counted from the right starting at 1. */
  function Weighted(d: Digit, pos: nat): nat {
    if pos % 2 == 0 then Doubled(d) else d
  }

  /** The Annex B sum: every digit weighted by its position from the right, read left to right. */
  function AnnexTotal(ds: seq<Digit>): nat {
    if |ds| == 0 then 0 else Weighted(ds[0], |ds|) + AnnexTotal(ds[1..])
  }

  lemma {:induction false} AnnexTotalAppendPair(a: seq<Digit>, x: Digit, y: Digit)
    ensures AnnexTotal(a + [x, y]) == AnnexTotal(a) + Doubled(x) + y
  {
    if |a| == 0 {
      assert a + [x, y] == [x, y];
      assert [x, y][1..] == [y];
      assert [y][1..] == [];
    } else {
      var n := |a|;
      assert (a + [x, y])[0] == a[0];
      assert (a + [x, y])[1..] == a[1..] + [x, y];
      assert Weighted(a[0], n + 2) == Weighted(a[0], n) by {
        assert (n + 2) % 2 == n % 2;
      }
      AnnexTotalAppendPair(a[1..], x, y);
    }
  }

  /** The source's two-stride computation agrees with the Annex B positional weighting. */
  lemma {:induction false} TotalIsAnnexTotal(ds: seq<Digit>)
    ensures Total(ds) == AnnexTotal(ds)
    decreases |ds|
  {
    var n := |ds|;
    if n == 0 {
    } else if n == 1 {
      assert ds == [ds[0]];
      SingleDigitTotal(ds[0]);
      assert ds[1..] == [];
    } else {
      var a := ds[..n - 2];
      TotalIsAnnexTotal(a);
      assert ds == a + [ds[n - 2], ds[n - 1]];
      AnnexTotalAppendPair(a, ds[n - 2], ds[n - 1]);
      assert RightStride(ds) == [ds[n - 1]] + RightStride(a);
      assert ([ds[n - 1]] + RightStride(a))[1..] == RightStride(a);
      var b := DropLast(ds);
      assert b == ds[..n - 1];
      if n == 2 {
        assert RightStride(b) == [ds[0]];
        assert [ds[0]][1..] == [];
        assert DropLast(a) == [];
      } else {
        assert b[..|b| - 2] == DropLast(a);
        assert RightStride(b) == [ds[n - 2]] + RightStride(DropLast(a));
        assert ([ds[n - 2]] + RightStride(DropLast(a)))[1..] == RightStride(DropLast(a));
      }
    }
  }

  // ---------------------------------------------------------------------------
  // The check digit
  // ---------------------------------------------------------------------------

  /** The stride of a number with one more digit starts with that digit. */
  lemma RightStrideAppend(ds: seq<Digit>, d: Digit)
    ensures RightStride(ds + [d]) == [d] + RightStride(DropLast(ds))
  {
    var n := |ds|;
    if n == 0 {
      assert ds + [d] == [d];
    } else {
      assert (ds + [d])[..n - 1] == DropLast(ds);
    }
  }

  /** Appending a digit adds it, undoubled, to the total with a zero in its place. */
  lemma TotalAppend(ds: seq<Digit>, d: Digit)
    ensures Total(ds + [d]) == d + Total(ds + [0])
  {
    assert DropLast(ds + [d]) == ds;
    assert DropLast(ds + [0]) == ds;
    var tail := RightStride(DropLast(ds));
    RightStrideAppend(ds, d);
    RightStrideAppend(ds, 0);
    SumCons(d, tail);
    SumCons(0, tail);
  }

  lemma ValuesAppend(s: string, d: Digit)
    requires AllDigits(s)
    ensures AllDigits(s + [DigitChar(d)])
    ensures Values(s + [DigitChar(d)]) == Values(s) + [d]
  {
    var t := s + [DigitChar(d)];
    assert forall i :: 0 <= i < |s| ==> t[i] == s[i];
  }

  /** The only digit that tops `t` up to a multiple of ten. */
  lemma TopUp(t: nat, d: Digit)
    ensures (d + t) % 10 == 0 <==> d == (10 - t % 10) % 10
  {
  }

  /** The checksum of `p` followed by the digit `d`, in terms of the total with a zero in its place. */
  lemma ChecksumAppend(p: string, d: Digit)
    requires AllDigits(p)
    ensures LuhnChecksum(p + [DigitChar(d)]) == Some((d + Total(Values(p) + [0])) % 10)
  {
    ValuesAppend(p, d);
    TotalAppend(Values(p), d);
  }

  /**
    For a digit string `p`, appending digit `d` yields a Luhn-valid number exactly when `d` is
    the check digit of `p`; so the check digit exists, makes the number valid, and is unique.
   */
  lemma {:induction false} CheckDigitCharacterization(p: string, d: Digit)
    requires AllDigits(p)
    ensures IsLuhnValid(p + [DigitChar(d)]) <==> CalculateCheckDigit(p) == Some(d)
  {
    var t0 := Total(Values(p) + [0]);
    ChecksumAppend(p, d);
    ChecksumAppend(p, 0);
    assert p + "0" == p + [DigitChar(0)];
    assert CalculateCheckDigit(p) == Some((10 - t0 % 10) % 10);
    TopUp(t0, d);
  }

  /** The check digit of a digit string makes it Luhn-valid. */
  lemma CheckDigitMakesValid(p: string)
    requires AllDigits(p)
    ensures CalculateCheckDigit(p).Some?
    ensures IsLuhnValid(p + [DigitChar(CalculateCheckDigit(p).value)])
  {
    CheckDigitCharacterization(p, CalculateCheckDigit(p).value);
  }

  /** Dropping the last digit of a Luhn-valid number and recomputing it gives the digit back. */
  lemma CheckDigitRoundTrip(n: string)
    requires |n| >= 1 && IsLuhnValid(n)
    ensures AllDigits(n)
    ensures CalculateCheckDigit(DropLast(n)) == Some(DigitValue(n[|n| - 1]))
  {
    var p := DropLast(n);
    var d := DigitValue(n[|n| - 1]);
    assert n == p + [DigitChar(d)];
    CheckDigitCharacterization(p, d);
  }

  /** Only digit strings are Luhn-valid: any other character makes `int()` raise. */
  lemma LuhnValidIsDigits(n: string)
    requires IsLuhnValid(n)
    ensures AllDigits(n)
  {
  }
}

=== FILE: strings.dfy ===
/**
  Character and string helpers over ASCII, mirroring the Python string operations the
  generator and the card-text parser use (`str.replace`, `str.split`, `str.count`,
  `str.zfill`, `str(int)`, `int(str)`, slicing `s[:-1]`).
 */
module Strings {

  /** A decimal digit value. */
  type Digit = d: int | 0 <= d <= 9

  predicate IsDigit(c: char) {
    '0' <= c <= '9'
  }

  function DigitValue(c: char): Digit
    requires IsDigit(c)
  {
    c as int - '0' as int
  }

  function DigitChar(d: Digit): (c: char)
    ensures IsDigit(c) && DigitValue(c) == d
  {
    ('0' as int + d) as char
  }

  predicate AllDigits(s: string) {
    forall i :: 0 <= i < |s| ==> IsDigit(s[i])
  }

  lemma AllDigitsCons(c: char, s: string)
    ensures AllDigits([c] + s) <==> IsDigit(c) && AllDigits(s)
  {
    var t := [c] + s;
    assert t[0] == c;
    assert forall i :: 0 <= i < |s| ==> t[i + 1] == s[i];
    if IsDigit(c) && AllDigits(s) {
      forall i | 0 <= i < |t| ensures IsDigit(t[i]) {
        if i > 0 { assert t[i] == s[i - 1]; }
      }
    }
  }

  /** Python's `s[:-1]`: everything but the last element; empty stays empty. */
  function DropLast<T>(s: seq<T>): (r: seq<T>)
    ensures |r| == if |s| == 0 then 0 else |s| - 1
    ensures r == s[..|r|]
  {
    if |s| == 0 then [] else s[..|s| - 1]
  }

  /** `s.count(c)` for a single character. */
  function Count(s: string, c: char): (n: nat)
    ensures n <= |s|
    ensures n == 0 <==> c !in s
  {
    if |s| == 0 then 0 else (if s[0] == c then 1 else 0) + Count(s[1..], c)
  }

  lemma {:induction false} CountConcat(a: string, b: string, c: char)
    ensures Count(a + b, c) == Count(a, c) + Count(b, c)
  {
    if |a| > 0 {
      assert (a + b)[1..] == a[1..] + b;
      CountConcat(a[1..], b, c);
    } else {
      assert a + b == b;
    }
  }

  /** The number of decimal digits in `s`: `len(re.findall(r'\d', s))`. */
  function CountDigits(s: string): (n: nat)
    ensures n <= |s|
    ensures n == |s| <==> AllDigits(s)
  {
    if |s| == 0 then 0
    else
      assert AllDigits(s) <==> IsDigit(s[0]) && AllDigits(s[1..]) by {
        assert forall i :: 1 <= i < |s| ==> s[i] == s[1..][i - 1];
      }
      (if IsDigit(s[0]) then 1 else 0) + CountDigits(s[1..])
  }

  lemma {:induction false} CountDigitsConcat(a: string, b: string)
    ensures CountDigits(a + b) == CountDigits(a) + CountDigits(b)
  {
    if |a| > 0 {
      assert (a + b)[1..] == a[1..] + b;
      CountDigitsConcat(a[1..], b);
    } else {
      assert a + b == b;
    }
  }

  /** The digits of `s`, in order, with everything else deleted: `''.join(re.findall(r'\d', s))`. */
  function DigitChars(s: string): (d: string)
    ensures AllDigits(d)
    ensures |s| == 1 ==> d == if IsDigit(s[0]) then s else []
  {
    if |s| == 0 then []
    else
      var rest := DigitChars(s[1..]);
      if IsDigit(s[0]) then AllDigitsCons(s[0], rest); [s[0]] + rest else rest
  }

  /** `CountDigits` counts exactly the digits `DigitChars` keeps. */
  lemma {:induction false} DigitCharsCount(s: string)
    ensures |DigitChars(s)| == CountDigits(s)
  {
    if |s| > 0 {
      DigitCharsCount(s[1..]);
    }
  }

  lemma ConcatAssoc<T>(x: seq<T>, y: seq<T>, z: seq<T>)
    ensures x + (y + z) == (x + y) + z
  {
  }

  /** Filtering distributes over concatenation, so the digits kept stay in their order. */
  lemma {:induction false} DigitCharsConcat(a: string, b: string)
    ensures DigitChars(a + b) == DigitChars(a) + DigitChars(b)
  {
    if |a| > 0 {
      assert (a + b)[0] == a[0];
      assert (a + b)[1..] == a[1..] + b;
      DigitCharsConcat(a[1..], b);
      var head := if IsDigit(a[0]) then [a[0]] else [];
      ConcatAssoc(head, DigitChars(a[1..]), DigitChars(b));
    } else {
      assert a + b == b;
    }
  }

  /** `s.replace(c, '')`: every occurrence of `c` deleted, the rest kept in order. */
  function Remove(s: string, c: char): (r: string)
    ensures c !in r
    ensures |r| == |s| - Count(s, c)
  {
    if |s| == 0 then [] else (if s[0] == c then [] else [s[0]]) + Remove(s[1..], c)
  }

  /** Deleting `c` keeps exactly the other characters. */
  lemma {:induction false} RemoveContents(s: string, c: char)
    ensures forall x :: x in Remove(s, c) <==> x in s && x != c
  {
    if |s| > 0 {
      RemoveContents(s[1..], c);
      assert s == [s[0]] + s[1..];
    }
  }

  /** Deletion distributes over concatenation, so the kept characters stay in their order. */
  lemma {:induction false} RemoveConcat(a: string, b: string, c: char)
    ensures Remove(a + b, c) == Remove(a, c) + Remove(b, c)
  {
    if |a| > 0 {
      assert (a + b)[0] == a[0];
      assert (a + b)[1..] == a[1..] + b;
      RemoveConcat(a[1..], b, c);
      var head := if a[0] == c then [] else [a[0]];
      ConcatAssoc(head, Remove(a[1..], c), Remove(b, c));
    } else {
      assert a + b == b;
    }
  }

  /** Deleting a character that does not occur changes nothing. */
  lemma {:induction false} RemoveAbsent(s: string, c: char)
    requires c !in s
    ensures Remove(s, c) == s
  {
    if |s| > 0 {
      assert c !in s[1..] by {
        assert forall x :: x in s[1..] ==> x in s;
      }
      RemoveAbsent(s[1..], c);
      assert s == [s[0]] + s[1..];
    }
  }

  /** `s.replace(a, b)` for single characters. */
  function Replace(s: string, a: char, b: char): (r: string)
    ensures |r| == |s|
    ensures forall i :: 0 <= i < |s| ==> r[i] == (if s[i] == a then b else s[i])
  {
    seq(|s|, i requires 0 <= i < |s| => if s[i] == a then b else s[i])
  }

  /** `c * n`: Python yields the empty string for a count that is zero or negative. */
  function Repeat(c: char, n: int): (r: string)
    ensures |r| == if n > 0 then n else 0
    decreases n
  {
    if n <= 0 then [] else [c] + Repeat(c, n - 1)
  }

  lemma {:induction false} RepeatElements(c: char, n: int)
    ensures forall i :: 0 <= i < |Repeat(c, n)| ==> Repeat(c, n)[i] == c
    decreases n
  {
    if n > 0 {
      RepeatElements(c, n - 1);
    }
  }

  /** A run of `c` holds `n` copies of `c` and nothing else. */
  lemma {:induction false} CountRepeat(c: char, n: int, x: char)
    ensures Count(Repeat(c, n), x) == if x == c && n > 0 then n else 0
    decreases n
  {
    if n > 0 {
      CountRepeat(c, n - 1, x);
      assert Repeat(c, n)[1..] == Repeat(c, n - 1);
    }
  }

  predicate StartsWith(s: string, prefix: string) {
    |prefix| <= |s| && s[..|prefix|] == prefix
  }

  /**
    `s.split(sep)`: the pieces between separators, empty pieces included; there is always
    one more piece than there are separators.
   */
  function Split(s: string, sep: char): (parts: seq<string>)
    ensures |parts| == Count(s, sep) + 1
    ensures forall i :: 0 <= i < |parts| ==> sep !in parts[i]
  {
    if |s| == 0 then [[]]
    else
      var rest := Split(s[1..], sep);
      if s[0] == sep then [[]] + rest
      else [[s[0]] + rest[0]] + rest[1..]
  }

  /** A piece of a split holds only characters of the string. */
  lemma {:induction false} SplitContents(s: string, sep: char)
    ensures forall i, x :: 0 <= i < |Split(s, sep)| && x in Split(s, sep)[i] ==> x in s
  {
    if |s| > 0 {
      var rest := Split(s[1..], sep);
      SplitContents(s[1..], sep);
      assert s == [s[0]] + s[1..];
      if s[0] != sep {
        assert forall x :: x in [s[0]] + rest[0] ==> x == s[0] || x in rest[0];
      }
    }
  }

  /** `sep.join(parts)`. */
  function Join(parts: seq<string>, sep: char): string
    requires |parts| >= 1
  {
    if |parts| == 1 then parts[0] else parts[0] + [sep] + Join(parts[1..], sep)
  }

  /** Prefixing the first piece prefixes the join. */
  lemma JoinHead(x: string, parts: seq<string>, sep: char)
    requires |parts| >= 1
    ensures Join([x + parts[0]] + parts[1..], sep) == x + Join(parts, sep)
  {
    var joined := [x + parts[0]] + parts[1..];
    assert joined[0] == x + parts[0];
    if |parts| > 1 {
      assert joined[1..] == parts[1..];
      assert x + parts[0] + [sep] + Join(parts[1..], sep) == x + (parts[0] + [sep] + Join(parts[1..], sep));
    }
  }

  /** Joining the pieces of a split restores the string. */
  lemma {:induction false} JoinSplit(s: string, sep: char)
    ensures Join(Split(s, sep), sep) == s
  {
    if |s| > 0 {
      var rest := Split(s[1..], sep);
      JoinSplit(s[1..], sep);
      if s[0] == sep {
        assert Split(s, sep) == [[]] + rest;
        assert ([[]] + rest)[1..] == rest;
        assert s == [] + [sep] + s[1..];
      } else {
        JoinHead([s[0]], rest, sep);
        assert s == [s[0]] + s[1..];
      }
    }
  }

  lemma HeadTail<T>(a: seq<T>, t: seq<T>)
    requires |a| > 0
    ensures [a[0]] + (a[1..] + t) == a + t
  {
    assert a == [a[0]] + a[1..];
  }

  /** A leading non-separator joins the first piece. */
  lemma SplitCons(c: char, t: string, sep: char)
    requires c != sep
    ensures Split([c] + t, sep) == [[c] + Split(t, sep)[0]] + Split(t, sep)[1..]
  {
    assert ([c] + t)[0] == c;
    assert ([c] + t)[1..] == t;
  }

  /** Splitting a string that begins with a separator-free piece. */
  lemma {:induction false} SplitPrefix(a: string, rest: string, sep: char)
    requires sep !in a
    ensures Split(a + rest, sep) == [a + Split(rest, sep)[0]] + Split(rest, sep)[1..]
  {
    var tail := Split(rest, sep);
    if |a| > 0 {
      var a' := a[1..];
      assert sep !in a' by {
        assert forall x :: x in a' ==> x in a;
      }
      SplitPrefix(a', rest, sep);
      var r := Split(a' + rest, sep);
      assert a + rest == [a[0]] + (a' + rest);
      SplitCons(a[0], a' + rest, sep);
      assert r[0] == a' + tail[0];
      assert r[1..] == tail[1..];
      HeadTail(a, tail[0]);
    } else {
      assert a + rest == rest;
      assert a + tail[0] == tail[0];
      assert tail == [tail[0]] + tail[1..];
    }
  }

  /** Splitting a join of separator-free pieces gives the pieces back. */
  lemma {:induction false} SplitJoin(parts: seq<string>, sep: char)
    requires |parts| >= 1
    requires forall i :: 0 <= i < |parts| ==> sep !in parts[i]
    ensures Split(Join(parts, sep), sep) == parts
  {
    if |parts| == 1 {
      SplitPrefix(parts[0], [], sep);
      assert parts[0] + [] == parts[0];
    } else {
      var tail := Join(parts[1..], sep);
      SplitJoin(parts[1..], sep);
      assert ([sep] + tail)[1..] == tail;
      assert Split([sep] + tail, sep) == [[]] + parts[1..];
      assert parts[0] + [sep] + tail == parts[0] + ([sep] + tail);
      SplitPrefix(parts[0], [sep] + tail, sep);
      assert parts[0] + [] == parts[0];
      assert parts == [parts[0]] + parts[1..];
    }
  }

  /** `SplitJoin` for the four fields of a card record. */
  lemma SplitJoinFour(a: string, b: string, c: string, d: string, sep: char)
    requires sep !in a && sep !in b && sep !in c && sep !in d
    ensures Split(Join([a, b, c, d], sep), sep) == [a, b, c, d]
  {
    var parts := [a, b, c, d];
    assert forall i :: 0 <= i < |parts| ==> sep !in parts[i];
    SplitJoin(parts, sep);
  }

  /** The first piece of a split is never longer than the string with its separators deleted. */
  lemma {:induction false} SplitHeadLength(s: string, sep: char)
    ensures |Split(s, sep)[0]| <= |Remove(s, sep)|
  {
    if |s| > 0 {
      SplitHeadLength(s[1..], sep);
    }
  }

  /** `int(s)` for a string of ASCII digits. */
  function Value(s: string): nat
    requires AllDigits(s)
  {
    if |s| == 0 then 0 else Value(s[..|s| - 1]) * 10 + DigitValue(s[|s| - 1])
  }

  /** `str(n)`: the decimal numeral of `n` without leading zeros. */
  function DecimalString(n: nat): (r: string)
    ensures |r| >= 1 && AllDigits(r)
    ensures Value(r) == n
    ensures r[0] != '0' || n == 0
  {
    if n < 10 then [DigitChar(n)]
    else
      var q := DecimalString(n / 10);
      var r := q + [DigitChar(n % 10)];
      assert r[..|r| - 1] == q;
      r
  }

  /** The numeral of a number below 1000 has one, two or three characters. */
  lemma DecimalStringLength(n: nat)
    requires n < 1000
    ensures |DecimalString(n)| == if n < 10 then 1 else if n < 100 then 2 else 3
  {
    if n >= 10 {
      assert |DecimalString(n)| == |DecimalString(n / 10)| + 1;
      if n >= 100 {
        assert |DecimalString(n / 10)| == |DecimalString(n / 100)| + 1;
      }
    }
  }

  /** `s.zfill(width)` for a string without a sign: left-padded with '0' to `width`. */
  function ZFill(s: string, width: int): (r: string)
    ensures |r| == if |s| < width then width else |s|
    ensures AllDigits(s) ==> AllDigits(r)
  {
    RepeatElements('0', width - |s|);
    Repeat('0', width - |s|) + s
  }

  /** `zfill` puts '0's in front of `s` and `s` itself at the end. */
  lemma ZFillPads(s: string, width: int)
    ensures var r := ZFill(s, width);
      && r[|r| - |s|..] == s
      && forall i :: 0 <= i < |r| - |s| ==> r[i] == '0'
  {
    RepeatElements('0', width - |s|);
    var pad := Repeat('0', width - |s|);
    assert (pad + s)[|pad|..] == s;
  }

  /** Zero-padding the numeral of `n` to two characters keeps its value. */
  lemma {:induction false} TwoDigitNumeral(n: nat)
    requires 1 <= n <= 99
    ensures var r := ZFill(DecimalString(n), 2);
      |r| == 2 && AllDigits(r) && Value(r) == n
  {
    DecimalStringLength(n);
    var d := DecimalString(n);
    var r := ZFill(d, 2);
    if n < 10 {
      assert r == ['0'] + d;
      assert r[..1] == ['0'];
      assert Value(['0']) == 0 by {
        assert ['0'][..0] == [];
      }
    } else {
      assert r == d;
    }
  }
}

=== FILE: wrappers.dfy ===
/** Failure-carrying result types shared by the card generator and the card-text parser. */
module Wrappers {

  /** A value that may be missing: Python's `None`, or an exception that aborted a computation. */
  datatype Option<+T> = None | Some(value: T)

  /** Either a value or an error; the `(ok, value_or_message)` pairs the generator returns. */
  datatype Result<+T, +E> = Ok(value: T) | Err(error: E)
}
